=== FILE: README.md ===
# Test case review: a Dafny model

This project models the core of a small review front end for AI-generated test cases.
Test cases are fetched from a workflow webhook, listed on one page, and handled in three ways:

- approved, which creates a Jira sub-task;
- rejected with a reason;
- edited before approval.

The model covers these parts:

- **Data model** (`test_case.dfy`):
  - the test case record and its status names;
  - the catalogue of five predefined rejection reasons.
- **Review controller** (`review_context.dfy`): the shared state, meaning the list, the selection, the loading flag and the error. It also covers the seven operations that change that state:
  - fetch, approve, reject and bulk approve;
  - toggle one, toggle all and clear.
  - The outcome of each remote call is an input to the model. It is either a success or something thrown.
- **Editor** (`test_case_editor.dfy`): field edits, step edits, adding and removing steps, and submit.
- **Rejection dialog** (`rejection_modal.dfy`):
  - how a reason is resolved from the chosen radio button and the free text;
  - when submit is enabled;
  - the reset after submitting.
- **Card** (`test_case_card.dfy`):
  - the view/edit state machine;
  - which case is sent when the user approves or rejects.
- **Page** (`review_page.dfy`):
  - which view is shown;
  - the select-all box;
  - the argument of a bulk approval;
  - how the page, the cards, the gateway and the controller fit together.
- **Webhook gateway** (`webhook_service.dfy`):
  - the URLs and request methods;
  - the JSON payloads sent for approval and rejection;
  - the error messages for HTTP failures;
  - the development-mode shortcut with its three sample cases.

Supporting modules:

- `Wrappers`: `Option`, `Result` and `Outcome`.
- `Seqs`: an order-preserving filter and its laws.
- `JsText`:
  - JavaScript's `trim` with its whitespace set;
  - `||` on strings;
  - decimal rendering of a number.

Everything is a pure function over immutable datatypes. A component's React state is a datatype, and each handler maps one state to the next. Several things become parameters:

- the clock;
- the build mode;
- the base URL;
- the replies of `fetch` and `response.json()`, including a body that is JSON `null`.

The properties fall into these groups:

- invariants that sequences of operations preserve, such as "the selection only holds listed ids" and "ids stay distinct", the latter provided the service hands out unique ids (the controller stores a fetched list unchecked);
- round trips, covering the JSON encoding of a test case, status names and the decimal status code in error messages;
- all-or-nothing behaviour of bulk approval;
- both directions of every enabling condition.

## Model

| member | source | states |
|---|---|---|
| TestCaseTypes.StatusFromName | src/types/testCase.ts:10 | a status string is accepted exactly when it is one of the three spellings, and it maps back to that spelling |
| TestCaseTypes.StatusNameRoundTrip | src/types/testCase.ts:10 | every status survives being written as its name and read back |
| TestCaseTypes.CatalogWellFormed | src/types/testCase.ts:20-46 | the catalogue has five reasons with pairwise distinct ids, none equal to the custom id, and every description is non-empty |
| TestCaseTypes.Ids | src/context/TestCaseReviewContext.tsx:131 | every listed case's id belongs to the id set of the list |
| TestCaseTypes.IdsHaveWitness | src/context/TestCaseReviewContext.tsx:131 | every id in the id set belongs to some listed case |
| TestCaseTypes.IdsCardinality | src/context/TestCaseReviewContext.tsx:128 | a list has at most as many ids as entries, and exactly as many when its ids are distinct |
| JsText.Trim | src/components/TestCase/RejectionModal.tsx:90 | the trimmed text is empty exactly when the input is all JavaScript whitespace; otherwise both its ends are non-whitespace, and it is the input minus its leading and trailing whitespace |
| JsText.NatToDecimal | src/services/webhookService.ts:24 | a status renders as a non-empty string of decimal digits without a leading zero |
| JsText.DecimalRoundTrip | src/services/webhookService.ts:24 | the decimal digits written into a status message parse back to the status code |
| JsText.NatToDecimalInjective | src/services/webhookService.ts:24 | distinct status codes render as distinct digit strings |
| Seqs.Filter | src/context/TestCaseReviewContext.tsx:53 | the filter result is no longer than its input, holds only kept elements of the input, and holds every kept element |
| Seqs.FilterIsSubsequence | src/pages/TestCaseReviewPage.tsx:25 | filtering keeps the input's order |
| Seqs.FilterCount | src/context/TestCaseReviewContext.tsx:101 | a filter keeps every occurrence of a kept element and no occurrence of a dropped one |
| Seqs.FilterPartition | src/context/TestCaseReviewContext.tsx:101 | filtering by a predicate and by its negation splits the input exactly, as multisets |
| ReviewContext.CaughtMessage | src/context/TestCaseReviewContext.tsx:38 | a thrown Error contributes its message, and anything else contributes the fixed unknown-error text |
| ReviewContext.Begin | src/context/TestCaseReviewContext.tsx:30-31 | starting an operation sets loading, clears the error, and keeps the list and the selection |
| ReviewContext.FetchTestCases | src/context/TestCaseReviewContext.tsx:29-44 | success replaces the list with the fetched cases, empties the selection and leaves no error; failure keeps the list and selection and records the caught message; loading ends either way |
| ReviewContext.ApproveTestCase | src/context/TestCaseReviewContext.tsx:46-68 | success removes every entry with the approved id from the list and the selection, keeps every other entry in order and as often as before, and leaves no error; failure changes neither and records the caught message; loading ends either way |
| ReviewContext.RejectTestCase | src/context/TestCaseReviewContext.tsx:70-92 | the same settlement as approval, for the rejected case |
| ReviewContext.FirstFailure | src/context/TestCaseReviewContext.tsx:99 | the combined outcome is absent exactly when every submission passed; otherwise it is the error of some failed submission |
| ReviewContext.ApproveBulkTestCases | src/context/TestCaseReviewContext.tsx:94-112 | when every submission passes, the entries whose ids are in the selection are removed, the others are kept in order and as often as before, and the selection is emptied; when any fails, the list and selection stay as they were and the error is one failure's message |
| ReviewContext.ToggleTestCaseSelection | src/context/TestCaseReviewContext.tsx:114-124 | the toggled id's membership flips, every other id keeps its membership, and nothing else changes |
| ReviewContext.ToggleAllTestCases | src/context/TestCaseReviewContext.tsx:126-133 | when the selection is as large as the list it is emptied, otherwise it becomes the id set of the list |
| ReviewContext.ClearSelection | src/context/TestCaseReviewContext.tsx:135-137 | the selection is emptied and nothing else changes |
| ReviewContext.RemovalCutsOutOneEntry | src/context/TestCaseReviewContext.tsx:52-54 | with distinct ids, removing one entry's id cuts exactly that position out of the list |
| ReviewContext.WithoutIdsRemovesIds | src/context/TestCaseReviewContext.tsx:100-102 | the id filter keeps the survivors in order and each as often as before, and keeps nothing with a removed id |
| ReviewContext.SubmissionCutsOutEntry | src/context/TestCaseReviewContext.tsx:52-54 | in a consistent state a successful approval, or rejection (the same filter at lines 76-78), of a listed case yields the list with exactly that position cut out |
| ReviewContext.RemovingAbsentIdsKeepsList | src/context/TestCaseReviewContext.tsx:100-102 | removing ids that no entry carries leaves the list unchanged |
| ReviewContext.IdsOfWithoutIds | src/context/TestCaseReviewContext.tsx:100-102 | after removal the list's ids are the old ids minus the removed ones |
| ReviewContext.WithoutIdsKeepsDistinct | src/context/TestCaseReviewContext.tsx:100-102 | removal keeps the ids distinct |
| ReviewContext.ToggleSelectionInvolution | src/context/TestCaseReviewContext.tsx:114-124 | toggling the same id twice restores the state |
| ReviewContext.ToggleAllIsSetToggle | src/context/TestCaseReviewContext.tsx:126-133 | in a consistent state, the size test at line 128 holds exactly when every listed id is selected, so toggle-all clears a complete selection and otherwise selects everything |
| ReviewContext.ToggleAllWithDuplicateIds | src/context/TestCaseReviewContext.tsx:128 | when two entries share an id and it is selected, every listed id is selected, yet toggle-all selects them again instead of clearing |
| ReviewContext.StepKeepsConsistent | src/context/TestCaseReviewContext.tsx:29-137 | every offered operation keeps the selection within the listed ids and keeps the ids distinct, where a fetch is offered only when the service answers with distinct ids (the source stores `data` unchecked at line 35) |
| ReviewContext.InitialRunKeepsConsistent | src/context/TestCaseReviewContext.tsx:23-26 | the state on mount is consistent, so every run of offered operations from it stays consistent |
| ReviewContext.FetchedDuplicatesBreakConsistency | src/context/TestCaseReviewContext.tsx:35 | a fetched list with a repeated id is stored as it is, leaving an inconsistent state |
| ReviewContext.RunKeepsConsistent | src/context/TestCaseReviewContext.tsx:29-137 | any sequence of offered operations keeps that invariant, under the same assumption on fetched lists |
| TestCaseEditor.UpdateField | src/components/TestCase/TestCaseEditor.tsx:17-25 | the named field takes the typed value, the other text fields, the steps and the identity are unchanged |
| TestCaseEditor.ChangeStep | src/components/TestCase/TestCaseEditor.tsx:27-34 | only the edited step changes, the step count is kept, and nothing outside the steps changes |
| TestCaseEditor.AddStep | src/components/TestCase/TestCaseEditor.tsx:36-41 | one empty step is appended after the unchanged existing steps |
| TestCaseEditor.DropPosition | src/components/TestCase/TestCaseEditor.tsx:44 | an in-range index cuts out exactly that position, and an out-of-range index keeps every step |
| TestCaseEditor.RemoveStep | src/components/TestCase/TestCaseEditor.tsx:43-49 | an in-range removal shortens the steps by one and drops that step, an out-of-range one changes nothing, and no other field changes |
| TestCaseEditor.Handle | src/components/TestCase/TestCaseEditor.tsx:51-54 | submitting emits a save and nothing else, and every other input emits a change that keeps the id and Jira key |
| TestCaseEditor.ReplayKeepsStepsAndIdentity | src/components/TestCase/TestCaseEditor.tsx:134 | because removal is offered only while more than one step exists, any input sequence keeps at least one step and keeps the identity |
| RejectionModal.FirstIndexOf | src/components/TestCase/RejectionModal.tsx:19 | the search finds the first catalogue position with the id, and finds nothing exactly when no entry has it |
| RejectionModal.FindReason | src/components/TestCase/RejectionModal.tsx:19 | the catalogue lookup returns an entry with the sought id, and returns nothing exactly when no entry has it |
| RejectionModal.FindReasonInCatalog | src/components/TestCase/RejectionModal.tsx:19 | looking up a catalogue id returns that catalogue entry |
| RejectionModal.ResolveReason | src/components/TestCase/RejectionModal.tsx:18-19 | the custom choice yields the free text verbatim, a catalogue id yields its description, and anything else yields the empty string |
| RejectionModal.SubmitEnabledIff | src/components/TestCase/RejectionModal.tsx:90 | the gate `SubmitEnabled` holds exactly when a reason is chosen and, for the custom choice, the trimmed text is non-empty |
| RejectionModal.RadioValues | src/components/TestCase/RejectionModal.tsx:38-60 | the radio values are the catalogue ids in order followed by the custom id |
| RejectionModal.EnabledRadioChoiceHasReason | src/components/TestCase/RejectionModal.tsx:16-23 | an enabled submit with a radio choice always resolves to a non-empty reason |
| RejectionModal.Submit | src/components/TestCase/RejectionModal.tsx:16-23 | submitting reports the resolved reason and resets the dialog to a state whose submit is disabled |
| RejectionModal.ModalReplayKeepsChoiceFromRadio | src/components/TestCase/RejectionModal.tsx:38-60 | any sequence of clicks and typing keeps the chosen value empty or one of the radio values |
| RejectionModal.SubmittedReasonNeverBlank | src/components/TestCase/RejectionModal.tsx:16-23 | after any interaction from the initial dialog, an enabled submit sends a non-empty reason and resets the dialog |
| TestCaseCard.InitialCard | src/components/TestCase/TestCaseCard.tsx:14-17 | a fresh card is expanded, not editing, with the dialog closed and the draft equal to the case |
| TestCaseCard.Edit | src/components/TestCase/TestCaseCard.tsx:26-29 | entering edit mode also expands the card and keeps the draft |
| TestCaseCard.Cancel | src/components/TestCase/TestCaseCard.tsx:31-34 | cancelling leaves edit mode and resets the draft to the original |
| TestCaseCard.Save | src/components/TestCase/TestCaseCard.tsx:36-38 | saving leaves edit mode and keeps the draft |
| TestCaseCard.Change | src/components/TestCase/TestCaseCard.tsx:49-51 | an editor change replaces the draft and nothing else |
| TestCaseCard.ToggleExpanded | src/components/TestCase/TestCaseCard.tsx:78 | the chevron flips the expanded flag and nothing else |
| TestCaseCard.SetRejectionModal | src/components/TestCase/TestCaseCard.tsx:121 | opening or closing the dialog changes only that flag |
| TestCaseCard.HandleReject | src/components/TestCase/TestCaseCard.tsx:44-47 | a rejection always sends the original case with the given reason and closes the dialog, keeping the draft, the edit mode and the expanded flag |
| TestCaseCard.CardReplayKeepsIdentity | src/components/TestCase/TestCaseCard.tsx:26-51 | any sequence of card inputs keeps the draft's id and Jira key equal to the original's |
| TestCaseCard.ApprovalSubject | src/components/TestCase/TestCaseCard.tsx:40-42 | as written, approval sends the draft while editing and the original otherwise |
| TestCaseCard.ApproveAlwaysSubmitsOriginal | src/components/TestCase/TestCaseCard.tsx:40-42 | whenever the Approve button is on screen, the approval sends the original case |
| TestCaseCard.SavedEditIsNotSubmitted | src/components/TestCase/TestCaseCard.tsx:100-150 | after Edit, a change and Save, Approve is available and the draft holds the edit, yet the edit is not what is sent |
| TestCaseCard.IntendedApprovalHonoursSave | src/components/TestCase/TestCaseCard.tsx:41 | under the corrected rule, a saved edit is what gets approved, while a cancelled edit and an untouched card approve the original |
| ReviewPage.ChooseView | src/pages/TestCaseReviewPage.tsx:29-54 | the loading view appears exactly when loading with an empty list; the error view appears exactly when not in that case and `HasError` holds (the error is present and non-empty), and it shows that error; the empty view and the list view each appear under their exact conditions |
| ReviewPage.BulkCases | src/pages/TestCaseReviewPage.tsx:25 | the bulk argument holds listed, selected cases, and holds every listed case whose id is selected |
| ReviewPage.BulkCasesInListOrder | src/pages/TestCaseReviewPage.tsx:25 | the bulk argument keeps the list's order |
| ReviewPage.SelectAllMeansAllSelected | src/pages/TestCaseReviewPage.tsx:68 | in a consistent state the box state `SelectAllChecked` (selection as large as the list) holds exactly when every listed case is selected |
| ReviewPage.SelectionControlsFollowSelection | src/pages/TestCaseReviewPage.tsx:74 | the guard `SelectionControlsShown` is false after clear, after a fully successful bulk approval and after a refresh, and shown once a case is ticked |
| ReviewPage.HandleBulkApprove | src/pages/TestCaseReviewPage.tsx:24-27 | on full success nothing submitted stays listed and the selection is emptied; on any failure list and selection stay and an error is recorded |
| ReviewPage.BulkApprovePartitionsList | src/pages/TestCaseReviewPage.tsx:24-27 | a fully successful bulk approval leaves a list that, together with the submitted cases, is the old list as a multiset, and none of whose entries was selected |
| ReviewPage.BulkApproveAllOrNothing | src/context/TestCaseReviewContext.tsx:99-108 | one failed submission leaves the list and selection as they were, even for cases whose submission went through, and records an error |
| ReviewPage.BulkRemovesSelectionNotArgument | src/context/TestCaseReviewContext.tsx:100-103 | the controller removes the selected ids rather than the argument's: with two selected and one submitted, both disappear |
| ReviewPage.FailedRefreshShowsError | src/pages/TestCaseReviewPage.tsx:33-41 | a failed refresh with a non-empty message shows the error view with that message and keeps the list |
| ReviewPage.LoadingViewOnlyWhenEmpty | src/pages/TestCaseReviewPage.tsx:29 | during an operation the loading view replaces the page only when nothing is listed |
| ReviewPage.RejectedHttpApprovalShowsError | src/services/webhookService.ts:66-69 | an approval whose reply is not 2xx fails and leaves the list alone with a non-empty error |
| ReviewPage.DevelopmentRefreshListsSamples | src/services/webhookService.ts:11-13 | in development a refresh lists the three samples in a consistent state and shows the list |
| ReviewPage.CardApprovalRemovesItsEntry | src/components/TestCase/TestCaseCard.tsx:40-42 | approving from a card removes that card's entry and its selection, both as written and under the corrected rule |
| ReviewPage.CardRejectionRemovesItsEntry | src/components/TestCase/TestCaseCard.tsx:44-47 | after any card interaction, a successful rejection from the card removes its entry and its selection and closes the dialog |
| ReviewPage.CardCheckboxMatchesBulk | src/components/TestCase/TestCaseCard.tsx:53 | a card's `IsSelected` holds exactly when its case is in the bulk argument, and clicking its checkbox flips it |
| WebhookService.StringsRoundTrip | src/services/webhookService.ts:63 | a list of strings survives being encoded as a JSON array and decoded |
| WebhookService.TestCaseToJson | src/services/webhookService.ts:44 | the encoding of a test case has exactly the seven required members plus createdAt, status and rejectionReason when present, and no metadata member |
| WebhookService.TestCaseJsonRoundTrip | src/types/testCase.ts:1-12 | every test case survives encoding as a JSON object and decoding |
| WebhookService.MetadataIsIgnored | src/services/webhookService.ts:45-48 | adding a metadata member does not change what an object decodes to |
| WebhookService.SpreadKeepsTestCase | src/services/webhookService.ts:43-49 | spreading a case and adding metadata still decodes to that case |
| WebhookService.ApprovalPayload | src/services/webhookService.ts:42-55 | the approval payload is an object with exactly the members testCase and jira; testCase has the case's members plus metadata, and decodes to the approved case |
| WebhookService.ApprovalPayloadMetadata | src/services/webhookService.ts:45-48 | the approval metadata has exactly the members approvedAt and status, carrying the given timestamp and the status APPROVED |
| WebhookService.ApprovalPayloadJira | src/services/webhookService.ts:50-54 | the Jira part has exactly the members parentIssueKey, issueType and labels: the case's key as parent, issue type Sub-task and the two labels |
| WebhookService.RejectionPayload | src/services/webhookService.ts:83-96 | the rejection payload is an object with exactly the members testCase and jira; testCase has the case's members plus metadata, and decodes to the rejected case |
| WebhookService.RejectionPayloadMetadata | src/services/webhookService.ts:86-90 | the rejection metadata has exactly the members rejectedAt, status and rejectionReason, carrying the timestamp, the status REJECTED and the reason |
| WebhookService.RejectionPayloadJira | src/services/webhookService.ts:92-95 | the Jira part has exactly the members issueKey and comment, and names the case's key as the issue to comment on |
| WebhookService.RejectionCommentCarriesReason | src/services/webhookService.ts:94 | the Jira comment is the fixed prefix followed by the reason, verbatim |
| WebhookService.HttpErrorMessage | src/services/webhookService.ts:24 | the message is the fixed prefix followed by digits that parse back to the status |
| WebhookService.HttpErrorMessageInjective | src/services/webhookService.ts:24 | distinct statuses give distinct messages |
| WebhookService.SubmitErrorMessage | src/services/webhookService.ts:66-69 | the error is the body's message when that is a non-empty string, and the status message otherwise, so it is never empty |
| WebhookService.FetchTestCasesFromWebhook | src/services/webhookService.ts:9-33 | development returns the samples without a request; production sends a GET with the JSON headers to the fetch URL, fails with the status message on a non-2xx reply, fails with the TypeError on a `null` body, fails with the network error or the parse error unchanged when those are what was thrown, and on a parsed 2xx body yields its test cases or an empty list |
| WebhookService.SubmitOutcome | src/services/webhookService.ts:66-69 | a submission passes exactly when `IsOk` holds of the reply's status; otherwise it fails with the body's message or the status message, or with the TypeError when the error body is `null`; a network error is passed on |
| WebhookService.SubmitApprovalToWebhook | src/services/webhookService.ts:35-74 | development passes without a request; production POSTs the approval payload to the approval URL, and the outcome follows the reply |
| WebhookService.SubmitRejectionToWebhook | src/services/webhookService.ts:76-115 | development passes without a request; production POSTs the rejection payload to the rejection URL, and the outcome follows the reply |
| WebhookService.HttpFailuresHaveMessages | src/services/webhookService.ts:23-25 | a non-2xx fetch reply in production fails with a non-empty message |
| WebhookService.MockTestCases | src/services/webhookService.ts:118-177 | there are three samples with distinct ids and the Jira keys QA-123, QA-124 and QA-125, each with its own creation time |

## Left out

- Rendering: the JSX markup, styling, icons, toasts and console logging are not modelled. The model covers the state they read and the handlers they call.
- I/O: `fetch`, `response.json()`, `new Date().toISOString()`, `setTimeout` and the build-mode and base-URL lookups are parameters. The request headers are modelled; the wording of the TypeError the engine throws on a `null` body is a parameter. The one-second delay in development mode is not modelled.
- ReviewContext.StepKeepsConsistent: the invariant "listed ids are distinct" rests on the service answering with distinct ids; the controller does not check this, and `FetchedDuplicatesBreakConsistency` shows what a duplicate does. The same assumption underlies `ReviewContext.RunKeepsConsistent`, `ReviewContext.ToggleAllIsSetToggle` and `ReviewPage.SelectAllMeansAllSelected`.
- Concurrency: the model settles each asynchronous operation in one step. Interleavings of concurrent operations and stale React closures are not modelled.
- ReviewContext.FirstFailure: `Promise.all` rejects with whichever failure settles first. The model reports the first failure in argument order. Its contract only promises some failure's error, which holds under either timing.
- WebhookService.FetchTestCasesFromWebhook: a parseable non-null body is assumed to carry either an array of test cases or no usable `testCases` member. A truthy `testCases` value of another JSON type, which the source would pass on unchecked, is not modelled.
- WebhookService.SubmitErrorMessage: the error body's `message` is modelled as an optional string. A non-string truthy value, which the source would pass to `new Error` and stringify, is not modelled.
- WebhookService.MockTestCases: the samples' ids, Jira keys and titles are fixed. Their long prose fields and their three creation times are parameters, and the contract does not pin down their text.
- TestCaseEditor.ChangeStep: requires an index inside the step list. Every step input is rendered from that list, and a JavaScript array write past the end, which would extend the list, cannot happen from the page.
- Browser form behaviour: the `required` attributes are not modelled, and the editor's `SubmitForm` input is always offered. On the page the editor's form has no submit button and Save Changes sits outside it, so Enter does not submit it there; the model's `SubmitForm` stands for whatever submission the form receives.
- The card keeps its draft when the list re-renders it with new props. This stale-draft behaviour is not modelled.
- The dialog's `isOpen` flag only decides whether anything is rendered, so it is not modelled.

## Findings

| source | as written | input that shows it | evidently intended | confidence | as-written member | corrected member |
|---|---|---|---|---|---|---|
| src/components/TestCase/TestCaseCard.tsx:40-42 | `handleApprove` sends the edited draft only while `isEditing`, but the Approve button is rendered only when not editing (lines 100-150), so the branch is dead | Edit, change the title, Save Changes, then Approve & Create in Jira: the unedited case is sent | after Save Changes, the saved draft is what gets approved | medium, not executed | TestCaseCard.SavedEditIsNotSubmitted | TestCaseCard.IntendedApprovalHonoursSave |

=== FILE: js_text.dfy ===
/** The few JavaScript string behaviours the UI relies on: `String.prototype.trim`,
    the `||` fallback on strings, and the decimal rendering of a non-negative integer
    inside a template literal. */
module JsText {

  /** The code points `String.prototype.trim` removes: the WhiteSpace and
      LineTerminator productions of ECMAScript (section 12.2 and 12.3 of ECMA-262). */
  predicate IsJsWhitespace(c: char) {
    || c == '\t' || c == '\n' || c == '\U{000B}' || c == '\U{000C}' || c == '\r'
    || c == ' ' || c == '\U{00A0}' || c == '\U{1680}'
    || ('\U{2000}' <= c <= '\U{200A}')
    || c == '\U{2028}' || c == '\U{2029}' || c == '\U{202F}' || c == '\U{205F}'
    || c == '\U{3000}' || c == '\U{FEFF}'
  }

  predicate AllWhitespace(s: string) {
    forall i :: 0 <= i < |s| ==> IsJsWhitespace(s[i])
  }

  /** How many code points at the start of `s` are whitespace. */
  function LeadingWhitespace(s: string): (n: nat)
    ensures n <= |s|
    ensures forall i :: 0 <= i < n ==> IsJsWhitespace(s[i])
    ensures n < |s| ==> !IsJsWhitespace(s[n])
  {
    if |s| > 0 && IsJsWhitespace(s[0]) then 1 + LeadingWhitespace(s[1..]) else 0
  }

  /** How many code points at the end of `s` are whitespace. */
  function TrailingWhitespace(s: string): (n: nat)
    ensures n <= |s|
    ensures forall i :: |s| - n <= i < |s| ==> IsJsWhitespace(s[i])
    ensures n < |s| ==> !IsJsWhitespace(s[|s| - n - 1])
  {
    if |s| > 0 && IsJsWhitespace(s[|s| - 1]) then 1 + TrailingWhitespace(s[..|s| - 1]) else 0
  }

  /** `s.trim()`: the longest infix of `s` that neither starts nor ends with whitespace,
      or the empty string when `s` is all whitespace. */
  function Trim(s: string): (r: string)
    ensures r == [] <==> AllWhitespace(s)
    ensures r != [] ==> !IsJsWhitespace(r[0]) && !IsJsWhitespace(r[|r| - 1])
    ensures r != [] ==> r == s[LeadingWhitespace(s) .. |s| - TrailingWhitespace(s)]
  {
    var lead := LeadingWhitespace(s);
    if lead == |s| then []
    else
      var trail := TrailingWhitespace(s);
      s[lead .. |s| - trail]
  }

  /** Trimming never invents text: a non-blank trimmed string comes from a non-empty one. */
  lemma TrimNonEmptyMeansNonEmpty(s: string)
    requires Trim(s) != []
    ensures s != [] && exists i :: 0 <= i < |s| && !IsJsWhitespace(s[i])
  {
  }

  /** JavaScript `a || b` where `a` is a string: the empty string is falsy. */
  function OrElse(a: string, b: string): (r: string)
    ensures a != [] ==> r == a
    ensures a == [] ==> r == b
  {
    if a != [] then a else b
  }

  /** The digit character for `d`. */
  function DigitChar(d: nat): (c: char)
    requires d < 10
    ensures '0' <= c <= '9'
  {
    "0123456789"[d]
  }

  function DigitValue(c: char): nat
    requires '0' <= c <= '9'
  {
    (c as int - '0' as int) as nat
  }

  predicate IsDigits(s: string) {
    forall i :: 0 <= i < |s| ==> '0' <= s[i] <= '9'
  }

  /** `${n}` for a non-negative integer `n`: decimal digits, no leading zero. */
  function NatToDecimal(n: nat): (r: string)
    ensures |r| >= 1 && IsDigits(r)
    ensures |r| > 1 ==> r[0] != '0'
  {
    if n < 10 then [DigitChar(n)] else NatToDecimal(n / 10) + [DigitChar(n % 10)]
  }

  /** The value of a string of decimal digits. */
  function DecimalValue(s: string): nat
    requires IsDigits(s)
  {
    if |s| == 0 then 0 else DecimalValue(s[..|s| - 1]) * 10 + DigitValue(s[|s| - 1])
  }

  /** Reading the rendered digits back gives the number: the rendering loses nothing. */
  lemma {:induction false} DecimalRoundTrip(n: nat)
    ensures DecimalValue(NatToDecimal(n)) == n
  {
    var r := NatToDecimal(n);
    if n < 10 {
      assert r == [DigitChar(n)];
      assert r[..0] == [];
    } else {
      DecimalRoundTrip(n / 10);
      assert r[..|r| - 1] == NatToDecimal(n / 10);
    }
  }

  /** Distinct numbers render differently. */
  lemma NatToDecimalInjective(m: nat, n: nat)
    requires NatToDecimal(m) == NatToDecimal(n)
    ensures m == n
  {
    DecimalRoundTrip(m);
    DecimalRoundTrip(n);
  }
}

=== FILE: rejection_modal.dfy ===
/** The rejection dialog: a radio choice among the catalog entries and a custom reason,
    a free-text box enabled only for the custom choice, a submit gate, and the reset
    after submission. */
module RejectionModal {
  import opened Wrappers
  import opened JsText
  import opened TestCaseTypes

  /** The position of the first entry with id `id`. */
  function FirstIndexOf(catalog: seq<RejectionReason>, id: string): (r: Option<nat>)
    ensures r.None? <==> forall i :: 0 <= i < |catalog| ==> catalog[i].id != id
    ensures r.Some? ==> r.value < |catalog| && catalog[r.value].id == id
    ensures r.Some? ==> forall j :: 0 <= j < r.value ==> catalog[j].id != id
  {
    if |catalog| == 0 then None
    else if catalog[0].id == id then Some(0)
    else match FirstIndexOf(catalog[1..], id)
      case None => None
      case Some(i) =>
        assert forall j :: 1 <= j < i + 1 ==> catalog[j] == catalog[1..][j - 1];
        Some(i + 1)
  }

  /** `REJECTION_REASONS.find(r => r.id === id)`: the first entry with that id. */
  function FindReason(catalog: seq<RejectionReason>, id: string): (r: Option<RejectionReason>)
    ensures r.None? <==> forall i :: 0 <= i < |catalog| ==> catalog[i].id != id
    ensures r.Some? ==> r.value in catalog && r.value.id == id
  {
    match FirstIndexOf(catalog, id)
    case None => None
    case Some(i) => Some(catalog[i])
  }

  /** Looking an id up in the catalog yields the entry at that id's position. */
  lemma FindReasonInCatalog(k: nat)
    requires k < |RejectionReasons|
    ensures FindReason(RejectionReasons, RejectionReasons[k].id) == Some(RejectionReasons[k])
  {
    CatalogWellFormed();
  }

  /** The reason string `handleSubmit` passes on: the custom text verbatim (untrimmed) for
      the custom choice, a catalog entry's description for a catalog id, and the empty
      string for anything else. */
  function ResolveReason(selectedReason: string, customReason: string): (r: string)
    ensures selectedReason == CustomReasonId ==> r == customReason
    ensures forall k :: 0 <= k < |RejectionReasons| && RejectionReasons[k].id == selectedReason ==>
      r == RejectionReasons[k].description
    ensures (selectedReason != CustomReasonId
             && forall k :: 0 <= k < |RejectionReasons| ==> RejectionReasons[k].id != selectedReason)
            ==> r == ""
  {
    CatalogWellFormed();
    if selectedReason == CustomReasonId then customReason
    else match FindReason(RejectionReasons, selectedReason)
      case Some(entry) => OrElse(entry.description, "")
      case None => ""
  }

  /** The submit button is disabled while no reason is chosen, or while the custom reason is
      chosen and its text trims to nothing. */
  predicate SubmitEnabled(selectedReason: string, customReason: string) {
    !(selectedReason == "" || (selectedReason == CustomReasonId && Trim(customReason) == ""))
  }

  /** The gate in terms of the text itself: a chosen reason, and for the custom choice at
      least one character that is not whitespace. */
  lemma SubmitEnabledIff(selectedReason: string, customReason: string)
    ensures SubmitEnabled(selectedReason, customReason) <==>
      selectedReason != ""
      && (selectedReason == CustomReasonId ==>
            exists i :: 0 <= i < |customReason| && !IsJsWhitespace(customReason[i]))
  {
  }

  /** The values the radio buttons carry: every catalog id, then the custom id. */
  function RadioValues(): (vs: seq<string>)
    ensures |vs| == |RejectionReasons| + 1 && vs[|RejectionReasons|] == CustomReasonId
    ensures forall k :: 0 <= k < |RejectionReasons| ==> vs[k] == RejectionReasons[k].id
  {
    seq(|RejectionReasons|, k requires 0 <= k < |RejectionReasons| => RejectionReasons[k].id)
      + [CustomReasonId]
  }

  /** Whenever submission is enabled for a choice the radio buttons can make, the resolved
      reason is non-empty: the controller never receives a blank rejection reason. */
  lemma EnabledRadioChoiceHasReason(selectedReason: string, customReason: string)
    requires selectedReason in RadioValues()
    requires SubmitEnabled(selectedReason, customReason)
    ensures ResolveReason(selectedReason, customReason) != ""
  {
    CatalogWellFormed();
    var vs := RadioValues();
    var k :| 0 <= k < |vs| && vs[k] == selectedReason;
    if k < |RejectionReasons| {
      assert RejectionReasons[k].id == selectedReason;
    } else {
      TrimNonEmptyMeansNonEmpty(customReason);
    }
  }

  /** The dialog's own state. */
  datatype ModalState = ModalState(selectedReason: string, customReason: string)

  const InitialModal: ModalState := ModalState("", "")

  /** The result of `handleSubmit`: the reason passed to `onReject`, and the next state. */
  datatype Submission = Submission(reason: string, next: ModalState)

  /** `handleSubmit`: resolve the reason, then reset both choice and text. */
  function Submit(st: ModalState): (r: Submission)
    ensures r.next == InitialModal && !SubmitEnabled(r.next.selectedReason, r.next.customReason)
    ensures r.reason == ResolveReason(st.selectedReason, st.customReason)
  {
    Submission(ResolveReason(st.selectedReason, st.customReason), InitialModal)
  }

  /** What the user can do in the open dialog. Closing keeps the choice and the text. */
  datatype ModalInput = Choose(value: string) | TypeCustom(text: string) | Close

  /** Radio buttons offer only their own values; the text box accepts input only while the
      custom choice is selected. */
  predicate ModalInputOffered(st: ModalState, input: ModalInput) {
    match input
    case Choose(value) => value in RadioValues()
    case TypeCustom(_) => st.selectedReason == CustomReasonId
    case Close => true
  }

  function ModalStep(st: ModalState, input: ModalInput): ModalState {
    match input
    case Choose(value) => st.(selectedReason := value)
    case TypeCustom(text) => st.(customReason := text)
    case Close => st
  }

  function ModalReplay(st: ModalState, inputs: seq<ModalInput>): ModalState
    decreases |inputs|
  {
    if |inputs| == 0 || !ModalInputOffered(st, inputs[0]) then st
    else ModalReplay(ModalStep(st, inputs[0]), inputs[1..])
  }

  /** The choice is always empty or one of the radio values. */
  ghost predicate ChoiceFromRadio(st: ModalState) {
    st.selectedReason == "" || st.selectedReason in RadioValues()
  }

  lemma {:induction false} ModalReplayKeepsChoiceFromRadio(st: ModalState, inputs: seq<ModalInput>)
    requires ChoiceFromRadio(st)
    ensures ChoiceFromRadio(ModalReplay(st, inputs))
    decreases |inputs|
  {
    if |inputs| > 0 && ModalInputOffered(st, inputs[0]) {
      ModalReplayKeepsChoiceFromRadio(ModalStep(st, inputs[0]), inputs[1..]);
    }
  }

  /** From a fresh dialog, whatever the user clicks and types, an enabled submission hands
      on a non-empty reason, and the dialog is reset afterwards. */
  lemma {:induction false} SubmittedReasonNeverBlank(inputs: seq<ModalInput>)
    requires var st := ModalReplay(InitialModal, inputs);
      SubmitEnabled(st.selectedReason, st.customReason)
    ensures Submit(ModalReplay(InitialModal, inputs)).reason != ""
    ensures Submit(ModalReplay(InitialModal, inputs)).next == InitialModal
  {
    var st := ModalReplay(InitialModal, inputs);
    ModalReplayKeepsChoiceFromRadio(InitialModal, inputs);
    EnabledRadioChoiceHasReason(st.selectedReason, st.customReason);
  }
}

=== FILE: review_context.dfy ===
/** The review state controller: the pending list, the selection, the busy flag and the
    last error, with one transition per controller operation. Every remote call's outcome
    is an input to the transition that consumes it. */
module ReviewContext {
  import opened Wrappers
  import opened Seqs
  import opened TestCaseTypes

  datatype ReviewState = ReviewState(
    testCases: seq<TestCase>,
    selected: set<string>,
    loading: bool,
    error: Option<string>)

  /** The state on mount: nothing loaded, nothing selected, idle, no error. */
  const InitialState: ReviewState := ReviewState([], {}, false, None)

  /** What a failed remote call threw: an `Error` object with a message, or anything else. */
  datatype Thrown = ThrownError(message: string) | ThrownOther

  /** The message a `catch` block records for what was thrown. */
  function CaughtMessage(t: Thrown): (m: string)
    ensures t.ThrownOther? ==> m == "An unknown error occurred"
    ensures t.ThrownError? ==> m == t.message
  {
    match t
    case ThrownError(message) => message
    case ThrownOther => "An unknown error occurred"
  }

  /** The synchronous prologue of every asynchronous operation. */
  function Begin(s: ReviewState): (r: ReviewState)
    ensures r.loading && r.error == None
    ensures r.testCases == s.testCases && r.selected == s.selected
  {
    s.(loading := true, error := None)
  }

  /** The `catch` and `finally` blocks: record the message, release the busy flag. */
  function Caught(s: ReviewState, t: Thrown): ReviewState {
    s.(error := Some(CaughtMessage(t)), loading := false)
  }

  /** The filter predicate that keeps the cases whose id is not in `ids`. */
  function IdNotIn(ids: set<string>): TestCase -> bool {
    (tc: TestCase) => tc.id !in ids
  }

  /** The list without the entries whose id is in `ids`. */
  function WithoutIds(cases: seq<TestCase>, ids: set<string>): seq<TestCase> {
    Filter(cases, IdNotIn(ids))
  }

  /** `fetchTestCases`: on success the list becomes exactly the fetched sequence and the
      selection is emptied; on failure list and selection are kept and the error recorded. */
  function FetchTestCases(s: ReviewState, outcome: Result<seq<TestCase>, Thrown>): (r: ReviewState)
    ensures !r.loading
    ensures outcome.Success? ==>
      r.testCases == outcome.value && r.selected == {} && r.error == None
    ensures outcome.Failure? ==>
      r.testCases == s.testCases && r.selected == s.selected
      && r.error == Some(CaughtMessage(outcome.error))
  {
    var b := Begin(s);
    match outcome
    case Success(data) => b.(testCases := data, selected := {}, loading := false)
    case Failure(t) => Caught(b, t)
  }

  /** Removal by id keeps the survivors in their order, every one of them exactly as often
      as before, and nothing with a removed id. */
  ghost predicate RemovedIds(before: seq<TestCase>, ids: set<string>, after: seq<TestCase>) {
    && IsSubsequence(after, before)
    && (forall i :: 0 <= i < |after| ==> after[i].id !in ids)
    && (forall x: TestCase :: x.id !in ids ==> multiset(after)[x] == multiset(before)[x])
  }

  /** `WithoutIds` is removal by id. */
  lemma WithoutIdsRemovesIds(cases: seq<TestCase>, ids: set<string>)
    ensures RemovedIds(cases, ids, WithoutIds(cases, ids))
  {
    FilterIsSubsequence(cases, IdNotIn(ids));
    forall x: TestCase | x.id !in ids
      ensures multiset(WithoutIds(cases, ids))[x] == multiset(cases)[x]
    {
      FilterCount(cases, IdNotIn(ids), x);
    }
  }

  /** What approve and reject promise: on success the submitted case's id leaves both the
      list and the selection and every other case stays, in order; on failure nothing but
      the error changes. Either way the busy flag is released. */
  ghost predicate SubmissionSettled(s: ReviewState, tc: TestCase, outcome: Outcome<Thrown>, r: ReviewState) {
    && !r.loading
    && (outcome.Pass? ==>
      && RemovedIds(s.testCases, {tc.id}, r.testCases)
      && r.selected == s.selected - {tc.id}
      && r.error == None)
    && (outcome.Fail? ==>
      r.testCases == s.testCases && r.selected == s.selected
      && r.error == Some(CaughtMessage(outcome.error)))
  }

  /** The shared body of approve and reject. */
  function SettleSubmission(s: ReviewState, tc: TestCase, outcome: Outcome<Thrown>): ReviewState {
    var b := Begin(s);
    match outcome
    case Pass => b.(testCases := WithoutIds(b.testCases, {tc.id}),
                    selected := b.selected - {tc.id}, loading := false)
    case Fail(t) => Caught(b, t)
  }

  /** `approveTestCase(testCase)` given the outcome of submitting the approval. */
  function ApproveTestCase(s: ReviewState, tc: TestCase, outcome: Outcome<Thrown>): (r: ReviewState)
    ensures SubmissionSettled(s, tc, outcome, r)
  {
    WithoutIdsRemovesIds(s.testCases, {tc.id});
    SettleSubmission(s, tc, outcome)
  }

  /** `rejectTestCase(testCase, reason)` given the outcome of submitting the rejection.
      The reason only travels to the remote call; the controller never inspects it. */
  function RejectTestCase(s: ReviewState, tc: TestCase, reason: string, outcome: Outcome<Thrown>): (r: ReviewState)
    ensures SubmissionSettled(s, tc, outcome, r)
  {
    WithoutIdsRemovesIds(s.testCases, {tc.id});
    SettleSubmission(s, tc, outcome)
  }

  /** The first failed outcome, in argument order. */
  function FirstFailure(outcomes: seq<Outcome<Thrown>>): (r: Option<Thrown>)
    ensures r.None? <==> forall i :: 0 <= i < |outcomes| ==> outcomes[i].Pass?
    ensures r.Some? ==> exists i :: 0 <= i < |outcomes| && outcomes[i] == Fail(r.value)
  {
    if |outcomes| == 0 then None
    else match outcomes[0]
      case Fail(t) => Some(t)
      case Pass => FirstFailure(outcomes[1..])
  }

  /** `approveBulkTestCases(cases)` given one approval outcome per argument. All or nothing:
      any failure leaves list and selection as they were; full success removes every case
      whose id is in the SELECTION (not the argument) and clears the selection. */
  function ApproveBulkTestCases(s: ReviewState, cases: seq<TestCase>, outcomes: seq<Outcome<Thrown>>): (r: ReviewState)
    requires |outcomes| == |cases|
    ensures !r.loading
    ensures (forall i :: 0 <= i < |outcomes| ==> outcomes[i].Pass?) ==>
      && RemovedIds(s.testCases, s.selected, r.testCases)
      && r.selected == {}
      && r.error == None
    ensures (exists i :: 0 <= i < |outcomes| && outcomes[i].Fail?) ==>
      && r.testCases == s.testCases && r.selected == s.selected
      && exists i :: 0 <= i < |outcomes| && outcomes[i].Fail?
                     && r.error == Some(CaughtMessage(outcomes[i].error))
  {
    WithoutIdsRemovesIds(s.testCases, s.selected);
    var b := Begin(s);
    match FirstFailure(outcomes)
    case None => b.(testCases := WithoutIds(b.testCases, b.selected), selected := {}, loading := false)
    case Some(t) => Caught(b, t)
  }

  /** `toggleTestCaseSelection(id)`: flips the membership of `id` and of nothing else. */
  function ToggleTestCaseSelection(s: ReviewState, id: string): (r: ReviewState)
    ensures id in r.selected <==> id !in s.selected
    ensures forall other :: other != id ==> (other in r.selected <==> other in s.selected)
    ensures r.testCases == s.testCases && r.loading == s.loading && r.error == s.error
  {
    if id in s.selected then s.(selected := s.selected - {id})
    else s.(selected := s.selected + {id})
  }

  /** `toggleAllTestCases`: when the selection is as large as the list, empty it; otherwise
      select every listed id. The comparison is on SIZES, not on the sets themselves. */
  function ToggleAllTestCases(s: ReviewState): (r: ReviewState)
    ensures |s.selected| == |s.testCases| ==> r.selected == {}
    ensures |s.selected| != |s.testCases| ==>
      forall id :: id in r.selected <==> exists i :: 0 <= i < |s.testCases| && s.testCases[i].id == id
    ensures r.testCases == s.testCases && r.loading == s.loading && r.error == s.error
  {
    if |s.selected| == |s.testCases| then s.(selected := {})
    else
      var ids := Ids(s.testCases);
      assert forall id :: id in ids ==> exists i :: 0 <= i < |s.testCases| && s.testCases[i].id == id by {
        forall id | id in ids ensures exists i :: 0 <= i < |s.testCases| && s.testCases[i].id == id {
          IdsHaveWitness(s.testCases, id);
        }
      }
      s.(selected := ids)
  }

  /** `clearSelection`. */
  function ClearSelection(s: ReviewState): (r: ReviewState)
    ensures r.selected == {}
    ensures r.testCases == s.testCases && r.loading == s.loading && r.error == s.error
  {
    s.(selected := {})
  }

  /** With distinct ids, only the entry at `k` carries the id `cases[k].id`. */
  lemma OnlyOneEntryHasId(cases: seq<TestCase>, k: nat)
    requires k < |cases| && DistinctIds(cases)
    ensures forall i :: 0 <= i < k ==> IdNotIn({cases[k].id})(cases[..k][i])
    ensures forall i :: k < i < |cases| ==> IdNotIn({cases[k].id})(cases[i])
  {
  }

  /** Approval and rejection remove by order-preserving filtering: with distinct ids, the
      new list is the old one with exactly the entry at the submitted id's position cut out. */
  lemma {:induction false} RemovalCutsOutOneEntry(cases: seq<TestCase>, k: nat)
    requires k < |cases| && DistinctIds(cases)
    ensures WithoutIds(cases, {cases[k].id}) == cases[..k] + cases[k + 1..]
  {
    var keep := IdNotIn({cases[k].id});
    var before, after := cases[..k], cases[k + 1..];
    SplitAt(cases, k);
    OnlyOneEntryHasId(cases, k);
    FilterKeepsAll(before, keep);
    assert forall i :: 0 <= i < |after| ==> keep(after[i]) by {
      forall i | 0 <= i < |after| ensures keep(after[i]) {
        assert after[i] == cases[k + 1 + i];
      }
    }
    FilterKeepsAll(after, keep);
    assert !keep(cases[k]) && [cases[k]][1..] == [];
    assert Filter([cases[k]], keep) == [];
    FilterAppend([cases[k]], after, keep);
    FilterAppend(before, [cases[k]] + after, keep);
  }

  /** Removing ids that are not listed changes nothing. */
  lemma RemovingAbsentIdsKeepsList(cases: seq<TestCase>, ids: set<string>)
    requires ids !! Ids(cases)
    ensures WithoutIds(cases, ids) == cases
  {
    FilterKeepsAll(cases, IdNotIn(ids));
  }

  /** The ids left after removal are the old ids minus the removed ones. */
  lemma {:induction false} IdsOfWithoutIds(cases: seq<TestCase>, ids: set<string>)
    ensures Ids(WithoutIds(cases, ids)) == Ids(cases) - ids
  {
    if |cases| > 0 {
      IdsOfWithoutIds(cases[1..], ids);
    }
  }

  /** Dropping the head keeps ids distinct. */
  lemma DistinctTail(cases: seq<TestCase>)
    requires |cases| > 0 && DistinctIds(cases)
    ensures DistinctIds(cases[1..])
  {
    var rest := cases[1..];
    forall i, j | 0 <= i < j < |rest| ensures rest[i].id != rest[j].id {
      assert rest[i] == cases[i + 1] && rest[j] == cases[j + 1];
    }
  }

  /** Prepending a case with a fresh id keeps ids distinct. */
  lemma DistinctCons(tc: TestCase, tail: seq<TestCase>)
    requires DistinctIds(tail) && tc.id !in Ids(tail)
    ensures DistinctIds([tc] + tail)
  {
    var r := [tc] + tail;
    forall i, j | 0 <= i < j < |r| ensures r[i].id != r[j].id {
      assert r[j] == tail[j - 1];
      if i > 0 {
        assert r[i] == tail[i - 1];
      }
    }
  }

  /** Removal keeps ids distinct. */
  lemma {:induction false} WithoutIdsKeepsDistinct(cases: seq<TestCase>, ids: set<string>)
    requires DistinctIds(cases)
    ensures DistinctIds(WithoutIds(cases, ids))
  {
    if |cases| > 0 {
      var rest := cases[1..];
      DistinctTail(cases);
      WithoutIdsKeepsDistinct(rest, ids);
      if cases[0].id !in ids {
        IdsOfWithoutIds(rest, ids);
        if cases[0].id in Ids(rest) {
          IdsHaveWitness(rest, cases[0].id);
        }
        assert IdNotIn(ids)(cases[0]);
        DistinctCons(cases[0], WithoutIds(rest, ids));
      }
    }
  }

  /** Toggling the same id twice restores the selection. */
  lemma ToggleSelectionInvolution(s: ReviewState, id: string)
    ensures ToggleTestCaseSelection(ToggleTestCaseSelection(s, id), id) == s
  {
  }

  /** The controller's consistency invariant: the selection only names listed ids, and
      listed ids are unique. */
  ghost predicate Consistent(s: ReviewState) {
    s.selected <= Ids(s.testCases) && DistinctIds(s.testCases)
  }

  /** A subset as large as its superset is the superset. */
  lemma SubsetOfEqualSize(a: set<string>, b: set<string>)
    requires a <= b && |a| == |b|
    ensures a == b
  {
    assert b == a + (b - a);
    assert |b| == |a| + |b - a|;
    assert b - a == {};
  }

  /** In a consistent state the size comparison of `toggleAllTestCases` is exactly the test
      "every listed id is selected": the toggle clears a complete selection and completes
      any other one. */
  lemma ToggleAllIsSetToggle(s: ReviewState)
    requires Consistent(s)
    ensures |s.selected| == |s.testCases| <==> s.selected == Ids(s.testCases)
    ensures s.selected == Ids(s.testCases) ==> ToggleAllTestCases(s).selected == {}
    ensures s.selected != Ids(s.testCases) ==> ToggleAllTestCases(s).selected == Ids(s.testCases)
  {
    IdsCardinality(s.testCases);
    if |s.selected| == |s.testCases| {
      SubsetOfEqualSize(s.selected, Ids(s.testCases));
    }
  }

  /** With a duplicated id the size test never sees a complete selection: every listed id is
      selected, yet toggling all selects them again instead of clearing. */
  lemma ToggleAllWithDuplicateIds(a: TestCase, b: TestCase)
    requires a.id == b.id
    ensures var s := ReviewState([a, b], {a.id}, false, None);
      s.selected == Ids(s.testCases) && ToggleAllTestCases(s).selected == s.selected
  {
    var s := ReviewState([a, b], {a.id}, false, None);
    assert [a, b][1..] == [b] && [b][1..] == [];
    assert Ids([b]) == {b.id};
    assert Ids(s.testCases) == {a.id} + Ids([b]);
    IdsCardinality(s.testCases);
  }

  /** The operations a user or the mount effect can trigger, each with its remote outcome. */
  datatype Action =
    | Fetch(fetched: Result<seq<TestCase>, Thrown>)
    | Approve(approved: TestCase, approveOutcome: Outcome<Thrown>)
    | Reject(rejected: TestCase, reason: string, rejectOutcome: Outcome<Thrown>)
    | ApproveBulk(cases: seq<TestCase>, outcomes: seq<Outcome<Thrown>>)
    | Toggle(id: string)
    | ToggleAll
    | Clear

  /** When the UI can issue an action: a card checkbox only toggles a listed id, a bulk
      approval carries one outcome per case, and the service hands out unique ids. */
  predicate Offered(s: ReviewState, a: Action) {
    match a
    case Fetch(fetched) => fetched.Success? ==> DistinctIds(fetched.value)
    case ApproveBulk(cases, outcomes) => |outcomes| == |cases|
    case Toggle(id) => id in Ids(s.testCases)
    case _ => true
  }

  function Step(s: ReviewState, a: Action): ReviewState
    requires Offered(s, a)
  {
    match a
    case Fetch(fetched) => FetchTestCases(s, fetched)
    case Approve(tc, outcome) => ApproveTestCase(s, tc, outcome)
    case Reject(tc, reason, outcome) => RejectTestCase(s, tc, reason, outcome)
    case ApproveBulk(cases, outcomes) => ApproveBulkTestCases(s, cases, outcomes)
    case Toggle(id) => ToggleTestCaseSelection(s, id)
    case ToggleAll => ToggleAllTestCases(s)
    case Clear => ClearSelection(s)
  }

  /** Every offered action keeps the controller consistent. */
  lemma StepKeepsConsistent(s: ReviewState, a: Action)
    requires Consistent(s) && Offered(s, a)
    ensures Consistent(Step(s, a))
  {
    match a
    case Approve(tc, outcome) =>
      if outcome.Pass? {
        IdsOfWithoutIds(s.testCases, {tc.id});
        WithoutIdsKeepsDistinct(s.testCases, {tc.id});
      }
    case Reject(tc, _, outcome) =>
      if outcome.Pass? {
        IdsOfWithoutIds(s.testCases, {tc.id});
        WithoutIdsKeepsDistinct(s.testCases, {tc.id});
      }
    case ApproveBulk(cases, outcomes) =>
      WithoutIdsKeepsDistinct(s.testCases, s.selected);
    case _ =>
  }

  /** Runs a sequence of actions, stopping at the first one the UI would not offer. */
  function Run(s: ReviewState, actions: seq<Action>): ReviewState
    decreases |actions|
  {
    if |actions| == 0 || !Offered(s, actions[0]) then s
    else Run(Step(s, actions[0]), actions[1..])
  }

  /** From any consistent state, whatever the user does and whatever the service answers
      (as long as it hands out unique ids), the selection only names listed ids and the
      listed ids stay unique. */
  lemma {:induction false} RunKeepsConsistent(s: ReviewState, actions: seq<Action>)
    requires Consistent(s)
    ensures Consistent(Run(s, actions))
    decreases |actions|
  {
    if |actions| > 0 && Offered(s, actions[0]) {
      StepKeepsConsistent(s, actions[0]);
      RunKeepsConsistent(Step(s, actions[0]), actions[1..]);
    }
  }

  /** The state on mount is consistent, so every run from it stays consistent. */
  lemma InitialRunKeepsConsistent(actions: seq<Action>)
    ensures Consistent(Run(InitialState, actions))
  {
    assert Ids(InitialState.testCases) == {};
    RunKeepsConsistent(InitialState, actions);
  }

  /** The controller stores a fetched list as it comes: when the service repeats an id,
      the state is no longer consistent. Unique ids are a promise of the service that
      `Offered` records, not something the controller checks. */
  lemma FetchedDuplicatesBreakConsistency(s: ReviewState, fetched: seq<TestCase>)
    requires !DistinctIds(fetched)
    ensures !Consistent(FetchTestCases(s, Success(fetched)))
  {
  }

  /** In a consistent state a successful approval or rejection of a listed case cuts
      exactly that case out of the list, keeping the others in order. */
  lemma SubmissionCutsOutEntry(s: ReviewState, k: nat, reason: string)
    requires Consistent(s) && k < |s.testCases|
    ensures ApproveTestCase(s, s.testCases[k], Pass).testCases == s.testCases[..k] + s.testCases[k + 1..]
    ensures RejectTestCase(s, s.testCases[k], reason, Pass).testCases == s.testCases[..k] + s.testCases[k + 1..]
  {
    RemovalCutsOutOneEntry(s.testCases, k);
  }
}

=== FILE: review_page.dfy ===
/** The review page: which view it shows for a controller state, what the select-all box
    shows, which cases a bulk approval submits, and how the page, the cards and the gateway
    compose with the controller. */
module ReviewPage {
  import opened Wrappers
  import opened Seqs
  import opened TestCaseTypes
  import opened ReviewContext
  import WebhookService
  import TestCaseCard

  datatype View = LoadingView | ErrorView(details: string) | EmptyView | ListView

  /** `if (error)`: a recorded error that is not the empty string. */
  predicate HasError(s: ReviewState) {
    s.error.Some? && s.error.value != ""
  }

  /** The first matching view: loading with nothing listed, then a truthy error, then an
      empty list, then the list. */
  function ChooseView(s: ReviewState): (v: View)
    ensures v == LoadingView <==> s.loading && |s.testCases| == 0
    ensures v.ErrorView? <==> !(s.loading && |s.testCases| == 0) && HasError(s)
    ensures v.ErrorView? ==> s.error == Some(v.details)
    ensures v == EmptyView <==> !s.loading && !HasError(s) && |s.testCases| == 0
    ensures v == ListView <==> !HasError(s) && |s.testCases| > 0
  {
    if s.loading && |s.testCases| == 0 then LoadingView
    else if HasError(s) then ErrorView(s.error.value)
    else if |s.testCases| == 0 then EmptyView
    else ListView
  }

  /** The select-all box is checked when the selection is as large as the list. */
  predicate SelectAllChecked(s: ReviewState) {
    |s.selected| == |s.testCases|
  }

  /** Clear Selection and Approve Selected are shown only for a non-empty selection. */
  predicate SelectionControlsShown(s: ReviewState) {
    |s.selected| > 0
  }

  /** `handleBulkApprove`'s argument: the listed cases whose id is selected, in list order. */
  function BulkCases(s: ReviewState): (cases: seq<TestCase>)
    ensures forall i :: 0 <= i < |cases| ==> cases[i] in s.testCases && cases[i].id in s.selected
    ensures forall i :: 0 <= i < |s.testCases| && s.testCases[i].id in s.selected ==>
      s.testCases[i] in cases
  {
    Filter(s.testCases, (tc: TestCase) => tc.id in s.selected)
  }

  /** The bulk argument keeps the list's order. */
  lemma BulkCasesInListOrder(s: ReviewState)
    ensures IsSubsequence(BulkCases(s), s.testCases)
  {
    FilterIsSubsequence(s.testCases, (tc: TestCase) => tc.id in s.selected);
  }

  /** In a consistent state the select-all box is checked exactly when every listed case is
      selected. */
  lemma SelectAllMeansAllSelected(s: ReviewState)
    requires Consistent(s)
    ensures SelectAllChecked(s) <==> s.selected == Ids(s.testCases)
  {
    ToggleAllIsSetToggle(s);
  }

  /** The selection controls disappear after Clear Selection, after a fully successful bulk
      approval and after a refresh, and appear once any case is ticked. */
  lemma SelectionControlsFollowSelection(s: ReviewState, id: string, outcomes: seq<Outcome<Thrown>>, fetched: seq<TestCase>)
    requires |outcomes| == |BulkCases(s)|
    requires forall i :: 0 <= i < |outcomes| ==> outcomes[i].Pass?
    ensures !SelectionControlsShown(ClearSelection(s))
    ensures !SelectionControlsShown(HandleBulkApprove(s, outcomes))
    ensures !SelectionControlsShown(FetchTestCases(s, Success(fetched)))
    ensures id !in s.selected ==> SelectionControlsShown(ToggleTestCaseSelection(s, id))
  {
    if id !in s.selected {
      assert id in ToggleTestCaseSelection(s, id).selected;
    }
  }

  /** `handleBulkApprove`: submit the selected cases, then let the controller settle. */
  function HandleBulkApprove(s: ReviewState, outcomes: seq<Outcome<Thrown>>): (r: ReviewState)
    requires |outcomes| == |BulkCases(s)|
    ensures (forall i :: 0 <= i < |outcomes| ==> outcomes[i].Pass?) ==>
      r.selected == {} && forall i :: 0 <= i < |r.testCases| ==> r.testCases[i] !in BulkCases(s)
    ensures (exists i :: 0 <= i < |outcomes| && outcomes[i].Fail?) ==>
      r.testCases == s.testCases && r.selected == s.selected && r.error.Some?
  {
    ApproveBulkTestCases(s, BulkCases(s), outcomes)
  }

  /** A fully successful bulk approval from the page splits the list: what remains and what
      was submitted together are the old list, element for element, and nothing that
      remains was selected. */
  lemma BulkApprovePartitionsList(s: ReviewState, outcomes: seq<Outcome<Thrown>>)
    requires |outcomes| == |BulkCases(s)|
    requires forall i :: 0 <= i < |outcomes| ==> outcomes[i].Pass?
    ensures var r := HandleBulkApprove(s, outcomes);
      && multiset(r.testCases) + multiset(BulkCases(s)) == multiset(s.testCases)
      && (forall i :: 0 <= i < |r.testCases| ==> r.testCases[i].id !in s.selected)
      && r.selected == {}
  {
    var keep := (tc: TestCase) => tc.id in s.selected;
    var drop := IdNotIn(s.selected);
    FilterPartition(s.testCases, keep, drop);
  }

  /** A failed submission in a bulk approval leaves the page's list and selection alone,
      even for the cases whose own submission went through. */
  lemma BulkApproveAllOrNothing(s: ReviewState, outcomes: seq<Outcome<Thrown>>, k: nat)
    requires |outcomes| == |BulkCases(s)| && k < |outcomes| && outcomes[k].Fail?
    ensures var r := HandleBulkApprove(s, outcomes);
      r.testCases == s.testCases && r.selected == s.selected && r.error.Some?
  {
  }

  /** The controller removes the ids in its SELECTION, not those in the argument: called
      with a single case while two are selected, a successful bulk approval removes both. */
  lemma BulkRemovesSelectionNotArgument(a: TestCase, b: TestCase)
    requires a.id != b.id
    ensures var s := ReviewState([a, b], {a.id, b.id}, false, None);
      ApproveBulkTestCases(s, [a], [Pass]).testCases == []
  {
    var s := ReviewState([a, b], {a.id, b.id}, false, None);
    assert [a, b][1..] == [b] && [b][1..] == [];
    assert WithoutIds([b], s.selected) == [];
    assert WithoutIds([a, b], s.selected) == [];
  }

  /** A failed refresh leaves a loaded list on screen only if the error is empty: any
      non-empty message replaces the list with the error view, though the list itself is
      kept. */
  lemma FailedRefreshShowsError(s: ReviewState, t: Thrown)
    requires CaughtMessage(t) != ""
    ensures var r := FetchTestCases(s, Failure(t));
      ChooseView(r) == ErrorView(CaughtMessage(t)) && r.testCases == s.testCases
  {
  }

  /** While an operation is in flight the loading view appears only when nothing is listed;
      a loaded list stays on screen. */
  lemma LoadingViewOnlyWhenEmpty(s: ReviewState)
    ensures ChooseView(Begin(s)) == LoadingView <==> |s.testCases| == 0
    ensures |s.testCases| > 0 ==> ChooseView(Begin(s)) == ListView
  {
  }

  /** Wiring the gateway to the controller: an approval whose HTTP reply is not a 2xx
      leaves the list alone and shows a non-empty error. */
  lemma RejectedHttpApprovalShowsError(
    s: ReviewState, tc: TestCase, baseUrl: string, approvedAt: string, status: nat, body: Option<string>)
    requires !WebhookService.IsOk(status)
    ensures var call := WebhookService.SubmitApprovalToWebhook(
        WebhookService.Production, baseUrl, tc, approvedAt, WebhookService.SubmitResponse(status, WebhookService.ErrorObject(body)));
      call.outcome.Fail?
      && var r := ApproveTestCase(s, tc, Fail(ThrownError(call.outcome.error)));
      r.testCases == s.testCases && HasError(r)
  {
  }

  /** In development mode a refresh lists the three sample cases, nothing selected, no error. */
  lemma DevelopmentRefreshListsSamples(s: ReviewState, texts: WebhookService.MockTexts, reply: WebhookService.FetchReply)
    ensures var call := WebhookService.FetchTestCasesFromWebhook(WebhookService.Development, "", texts, reply);
      call.result.Success?
      && var r := FetchTestCases(s, Success(call.result.value));
      |r.testCases| == 3 && Consistent(r) && ChooseView(r) == ListView
  {
  }

  /** Approving from a card removes that card's own entry, whatever the user edited: the
      editor never changes a case's id. This holds for the card as written and for the
      corrected rule that submits the draft. */
  lemma CardApprovalRemovesItsEntry(s: ReviewState, original: TestCase, inputs: seq<TestCaseCard.CardInput>)
    requires original in s.testCases
    ensures var c := TestCaseCard.CardReplay(original, TestCaseCard.InitialCard(original), inputs);
      var r := ApproveTestCase(s, TestCaseCard.ApprovalSubject(original, c), Pass);
      original !in r.testCases && original.id !in r.selected
    ensures var c := TestCaseCard.CardReplay(original, TestCaseCard.InitialCard(original), inputs);
      var r := ApproveTestCase(s, TestCaseCard.IntendedApprovalSubject(c), Pass);
      original !in r.testCases && original.id !in r.selected
  {
    TestCaseCard.CardReplayKeepsIdentity(original, TestCaseCard.InitialCard(original), inputs);
  }

  /** Rejecting from a card removes that card's own entry and its selection, whatever the
      user did on the card before. */
  lemma CardRejectionRemovesItsEntry(
    s: ReviewState, original: TestCase, inputs: seq<TestCaseCard.CardInput>, reason: string)
    requires original in s.testCases
    ensures var c := TestCaseCard.CardReplay(original, TestCaseCard.InitialCard(original), inputs);
      var request := TestCaseCard.HandleReject(original, c, reason);
      var r := RejectTestCase(s, request.subject, request.reason, Pass);
      original !in r.testCases && original.id !in r.selected && !request.next.showRejectionModal
  {
  }

  /** A card's checkbox is ticked exactly when its case is among those Approve Selected
      submits, and clicking it flips that. */
  lemma CardCheckboxMatchesBulk(s: ReviewState, k: nat)
    requires k < |s.testCases|
    ensures TestCaseCard.IsSelected(s.testCases[k], s.selected) <==> s.testCases[k] in BulkCases(s)
    ensures var tc := s.testCases[k];
      TestCaseCard.IsSelected(tc, ToggleTestCaseSelection(s, tc.id).selected) <==> !TestCaseCard.IsSelected(tc, s.selected)
  {
  }
}

=== FILE: seqs.dfy ===
/** Order-preserving filtering of sequences, the `Array.prototype.filter` the
    review UI uses for every removal. */
module Seqs {

  /** The elements of `xs` satisfying `keep`, in their original order. */
  function Filter<T(==)>(xs: seq<T>, keep: T -> bool): (r: seq<T>)
    ensures |r| <= |xs|
    ensures forall i :: 0 <= i < |r| ==> r[i] in xs && keep(r[i])
    ensures forall i :: 0 <= i < |xs| && keep(xs[i]) ==> xs[i] in r
  {
    if |xs| == 0 then []
    else if keep(xs[0]) then [xs[0]] + Filter(xs[1..], keep)
    else Filter(xs[1..], keep)
  }

  /** `r` can be obtained from `xs` by deleting elements (order is kept). */
  predicate IsSubsequence<T(==)>(r: seq<T>, xs: seq<T>)
    decreases |xs|
  {
    |r| == 0 ||
    (|xs| > 0 &&
     ((r[0] == xs[0] && IsSubsequence(r[1..], xs[1..])) || IsSubsequence(r, xs[1..])))
  }

  /** Filtering distributes over concatenation: the kept elements of a prefix
      come before the kept elements of the rest. */
  lemma {:induction false} FilterAppend<T>(a: seq<T>, b: seq<T>, keep: T -> bool)
    ensures Filter(a + b, keep) == Filter(a, keep) + Filter(b, keep)
  {
    if |a| == 0 {
      assert a + b == b;
    } else {
      assert (a + b)[0] == a[0];
      assert (a + b)[1..] == a[1..] + b;
      FilterAppend(a[1..], b, keep);
    }
  }

  /** A filter that rejects nothing is the identity. */
  lemma {:induction false} FilterKeepsAll<T>(xs: seq<T>, keep: T -> bool)
    requires forall i :: 0 <= i < |xs| ==> keep(xs[i])
    ensures Filter(xs, keep) == xs
  {
    if |xs| > 0 {
      FilterKeepsAll(xs[1..], keep);
      assert [xs[0]] + xs[1..] == xs;
    }
  }

  /** A filter's result is a subsequence of its input: relative order is preserved. */
  lemma {:induction false} FilterIsSubsequence<T>(xs: seq<T>, keep: T -> bool)
    ensures IsSubsequence(Filter(xs, keep), xs)
  {
    if |xs| > 0 {
      FilterIsSubsequence(xs[1..], keep);
      var r := Filter(xs, keep);
      if keep(xs[0]) {
        assert r[0] == xs[0] && r[1..] == Filter(xs[1..], keep);
      }
    }
  }

  /** Filtering by a predicate and by its negation splits the input: together
      the two results hold every element exactly as often as the input does. */
  lemma {:induction false} FilterPartition<T>(xs: seq<T>, keep: T -> bool, drop: T -> bool)
    requires forall i :: 0 <= i < |xs| ==> (drop(xs[i]) <==> !keep(xs[i]))
    ensures multiset(Filter(xs, keep)) + multiset(Filter(xs, drop)) == multiset(xs)
  {
    if |xs| > 0 {
      FilterPartition(xs[1..], keep, drop);
      assert xs == [xs[0]] + xs[1..];
    }
  }

  /** A filter keeps every occurrence of a kept element and no occurrence of a dropped one. */
  lemma {:induction false} FilterCount<T>(xs: seq<T>, keep: T -> bool, x: T)
    ensures multiset(Filter(xs, keep))[x] == if keep(x) then multiset(xs)[x] else 0
  {
    if |xs| > 0 {
      FilterCount(xs[1..], keep, x);
      assert xs == [xs[0]] + xs[1..];
    }
  }

  /** A sequence is its prefix before `k`, its element at `k`, and the rest. */
  lemma SplitAt<T>(xs: seq<T>, k: nat)
    requires k < |xs|
    ensures xs == xs[..k] + ([xs[k]] + xs[k + 1..])
  {
  }
}

=== FILE: test_case.dfy ===
/** The review item and the fixed rejection-reason catalog. */
module TestCaseTypes {
  import opened Wrappers

  /** The advisory review status a test case may carry. */
  datatype Status = Pending | Approved | Rejected

  /** The wire spelling of a status. */
  function StatusName(st: Status): string {
    match st
    case Pending => "PENDING"
    case Approved => "APPROVED"
    case Rejected => "REJECTED"
  }

  /** Reads a status back from its wire spelling; any other string is not a status. */
  function StatusFromName(name: string): (r: Option<Status>)
    ensures r.Some? <==> name in {"PENDING", "APPROVED", "REJECTED"}
    ensures r.Some? ==> StatusName(r.value) == name
  {
    if name == "PENDING" then Some(Pending)
    else if name == "APPROVED" then Some(Approved)
    else if name == "REJECTED" then Some(Rejected)
    else None
  }

  /** Every status survives the round trip through its wire spelling. */
  lemma StatusNameRoundTrip(st: Status)
    ensures StatusFromName(StatusName(st)) == Some(st)
  {
  }

  /** A proposed test case. The three trailing fields are optional in the record. */
  datatype TestCase = TestCase(
    id: string,
    jiraId: string,
    title: string,
    objective: string,
    prerequisites: string,
    steps: seq<string>,
    expectedResults: string,
    createdAt: Option<string>,
    status: Option<Status>,
    rejectionReason: Option<string>)

  /** One entry of the rejection catalog (`labelText` is the source's `label`, a Dafny keyword). */
  datatype RejectionReason = RejectionReason(id: string, labelText: string, description: string)

  /** The catalog offered by the rejection dialog, in display order. */
  const RejectionReasons: seq<RejectionReason> := [
    RejectionReason("incomplete", "Incomplete Test Case",
      "The test case is missing critical information or steps"),
    RejectionReason("unclear", "Unclear Requirements",
      "The test case objectives or steps are not clearly defined"),
    RejectionReason("duplicate", "Duplicate Test Case",
      "This scenario is already covered by another test case"),
    RejectionReason("irrelevant", "Not Relevant",
      "The test case does not align with the feature requirements"),
    RejectionReason("complex", "Too Complex",
      "The test case needs to be broken down into smaller scenarios")
  ]

  /** The id the rejection dialog reserves for free-text reasons. */
  const CustomReasonId: string := "custom"

  /** The catalog has five entries with pairwise distinct ids, none of them the
      reserved custom id, and every description is non-empty. */
  lemma CatalogWellFormed()
    ensures |RejectionReasons| == 5
    ensures forall i, j :: 0 <= i < j < |RejectionReasons| ==>
      RejectionReasons[i].id != RejectionReasons[j].id
    ensures forall i :: 0 <= i < |RejectionReasons| ==>
      RejectionReasons[i].id != CustomReasonId && RejectionReasons[i].description != ""
  {
  }

  /** The ids present in a list of test cases. */
  function Ids(cases: seq<TestCase>): (ids: set<string>)
    ensures forall i :: 0 <= i < |cases| ==> cases[i].id in ids
  {
    if |cases| == 0 then {} else {cases[0].id} + Ids(cases[1..])
  }

  /** Every id in `Ids(cases)` is the id of some entry. */
  lemma {:induction false} IdsHaveWitness(cases: seq<TestCase>, id: string)
    requires id in Ids(cases)
    ensures exists i :: 0 <= i < |cases| && cases[i].id == id
  {
    if cases[0].id != id {
      IdsHaveWitness(cases[1..], id);
      var i :| 0 <= i < |cases[1..]| && cases[1..][i].id == id;
      assert cases[i + 1].id == id;
    }
  }

  /** No two entries of the list share an id. */
  predicate DistinctIds(cases: seq<TestCase>) {
    forall i, j :: 0 <= i < j < |cases| ==> cases[i].id != cases[j].id
  }

  /** There are never more ids than cases, and exactly as many when the ids are distinct. */
  lemma {:induction false} IdsCardinality(cases: seq<TestCase>)
    ensures |Ids(cases)| <= |cases|
    ensures DistinctIds(cases) ==> |Ids(cases)| == |cases|
  {
    if |cases| > 0 {
      var rest := cases[1..];
      IdsCardinality(rest);
      if DistinctIds(cases) {
        assert cases[0].id !in Ids(rest) by {
          if cases[0].id in Ids(rest) {
            IdsHaveWitness(rest, cases[0].id);
          }
        }
        assert DistinctIds(rest) by {
          forall i, j | 0 <= i < j < |rest| ensures rest[i].id != rest[j].id {
            assert rest[i] == cases[i + 1] && rest[j] == cases[j + 1];
          }
        }
      }
    }
  }
}

=== FILE: test_case_card.dfy ===
/** One card of the review list: view/edit mode, the expanded flag, the rejection dialog
    flag and the edited draft, with what its Approve and Reject buttons submit. The card's
    original test case is its `testCase` property and never changes while it is shown. */
module TestCaseCard {
  import opened TestCaseTypes
  import TestCaseEditor

  datatype CardState = CardState(
    isEditing: bool,
    isExpanded: bool,
    showRejectionModal: bool,
    draft: TestCase)

  /** A freshly mounted card: viewing, expanded, no dialog, the draft a copy of the original. */
  function InitialCard(original: TestCase): (c: CardState)
    ensures !c.isEditing && c.isExpanded && !c.showRejectionModal && c.draft == original
  {
    CardState(false, true, false, original)
  }

  /** `handleEdit`: enter edit mode, expanded; the draft is kept. */
  function Edit(c: CardState): (r: CardState)
    ensures r.isEditing && r.isExpanded
    ensures r.draft == c.draft && r.showRejectionModal == c.showRejectionModal
  {
    c.(isEditing := true, isExpanded := true)
  }

  /** `handleCancel`: leave edit mode and throw the draft away. */
  function Cancel(original: TestCase, c: CardState): (r: CardState)
    ensures !r.isEditing && r.draft == original
    ensures r.isExpanded == c.isExpanded && r.showRejectionModal == c.showRejectionModal
  {
    c.(draft := original, isEditing := false)
  }

  /** `handleSave`: leave edit mode; the draft is kept but nothing is submitted. */
  function Save(c: CardState): (r: CardState)
    ensures !r.isEditing && r.draft == c.draft
    ensures r.isExpanded == c.isExpanded && r.showRejectionModal == c.showRejectionModal
  {
    c.(isEditing := false)
  }

  /** `handleChange`: the editor's new test case replaces the draft wholesale. */
  function Change(c: CardState, updated: TestCase): (r: CardState)
    ensures r.draft == updated
    ensures r.isEditing == c.isEditing && r.isExpanded == c.isExpanded
    ensures r.showRejectionModal == c.showRejectionModal
  {
    c.(draft := updated)
  }

  /** The chevron button flips the expanded flag. */
  function ToggleExpanded(c: CardState): (r: CardState)
    ensures r.isExpanded == !c.isExpanded && r.(isExpanded := c.isExpanded) == c
  {
    c.(isExpanded := !c.isExpanded)
  }

  /** The Reject button opens the dialog; its close button and a finished rejection shut it. */
  function SetRejectionModal(c: CardState, open: bool): (r: CardState)
    ensures r.showRejectionModal == open && r.(showRejectionModal := c.showRejectionModal) == c
  {
    c.(showRejectionModal := open)
  }

  /** `handleApprove` as written: the draft while editing, the original otherwise. */
  function ApprovalSubject(original: TestCase, c: CardState): (r: TestCase)
    ensures c.isEditing ==> r == c.draft
    ensures !c.isEditing ==> r == original
  {
    if c.isEditing then c.draft else original
  }

  /** `handleReject(reason)`: the original with the reason, whatever the draft holds; the
      dialog closes once the controller has settled (the controller never throws). */
  datatype RejectionRequest = RejectionRequest(subject: TestCase, reason: string, next: CardState)

  function HandleReject(original: TestCase, c: CardState, reason: string): (r: RejectionRequest)
    ensures r.subject == original && r.reason == reason
    ensures !r.next.showRejectionModal && r.next.draft == c.draft && r.next.isEditing == c.isEditing
    ensures r.next.isExpanded == c.isExpanded
  {
    RejectionRequest(original, reason, SetRejectionModal(c, false))
  }

  /** `isSelected`. */
  predicate IsSelected(original: TestCase, selected: set<string>) {
    original.id in selected
  }

  /** The buttons rendered under an expanded card: Cancel and Save while editing;
      Reject, Edit and Approve otherwise. All are disabled while the controller is busy. */
  predicate ViewButtonsOffered(c: CardState, loading: bool) {
    c.isExpanded && !c.isEditing && !loading
  }

  predicate SaveOrCancelOffered(c: CardState, loading: bool) {
    c.isExpanded && c.isEditing && !loading
  }

  /** What a user can do on a card; editor inputs reach the card through `Change`. */
  datatype CardInput =
    | ClickEdit
    | ClickCancel
    | ClickSave
    | EditorInput(input: TestCaseEditor.Input)
    | ClickChevron

  predicate CardInputOffered(c: CardState, input: CardInput) {
    match input
    case ClickEdit => ViewButtonsOffered(c, false)
    case ClickCancel => SaveOrCancelOffered(c, false)
    case ClickSave => SaveOrCancelOffered(c, false)
    case EditorInput(i) => c.isExpanded && c.isEditing && TestCaseEditor.InputOffered(c.draft, i)
    case ClickChevron => true
  }

  function CardStep(original: TestCase, c: CardState, input: CardInput): CardState
    requires CardInputOffered(c, input)
  {
    match input
    case ClickEdit => Edit(c)
    case ClickCancel => Cancel(original, c)
    case ClickSave => Save(c)
    case EditorInput(i) =>
      (match TestCaseEditor.Handle(c.draft, i)
       case Changed(updated) => Change(c, updated)
       case Saved => Save(c))
    case ClickChevron => ToggleExpanded(c)
  }

  function CardReplay(original: TestCase, c: CardState, inputs: seq<CardInput>): CardState
    decreases |inputs|
  {
    if |inputs| == 0 || !CardInputOffered(c, inputs[0]) then c
    else CardReplay(original, CardStep(original, c, inputs[0]), inputs[1..])
  }

  /** The draft keeps the original's identity through any editing, so approving or
      rejecting from a card always removes that card's own entry. */
  lemma {:induction false} CardReplayKeepsIdentity(original: TestCase, c: CardState, inputs: seq<CardInput>)
    requires c.draft.id == original.id && c.draft.jiraId == original.jiraId
    ensures CardReplay(original, c, inputs).draft.id == original.id
    ensures CardReplay(original, c, inputs).draft.jiraId == original.jiraId
    decreases |inputs|
  {
    if |inputs| > 0 && CardInputOffered(c, inputs[0]) {
      CardReplayKeepsIdentity(original, CardStep(original, c, inputs[0]), inputs[1..]);
    }
  }

  /** As written, the Approve button exists only outside edit mode, so whenever it can be
      clicked it submits the original: the `isEditing` branch of `handleApprove` is dead. */
  lemma ApproveAlwaysSubmitsOriginal(original: TestCase, c: CardState, loading: bool)
    requires ViewButtonsOffered(c, loading)
    ensures ApprovalSubject(original, c) == original
  {
  }

  /** Edit, change the draft, Save, then Approve: the submitted case is the original and the
      saved edit is lost. */
  lemma SavedEditIsNotSubmitted(original: TestCase, edited: TestCase)
    requires edited != original
    ensures var c := Save(Change(Edit(InitialCard(original)), edited));
      ViewButtonsOffered(c, false) && c.draft == edited && ApprovalSubject(original, c) != edited
  {
  }

  /** The evident intent: Approve submits the draft, which Cancel resets to the original and
      Save keeps. */
  function IntendedApprovalSubject(c: CardState): TestCase {
    c.draft
  }

  /** Under the intended rule a saved edit is what gets approved, a cancelled one is not,
      and an untouched card approves its original. */
  lemma IntendedApprovalHonoursSave(original: TestCase, edited: TestCase)
    ensures IntendedApprovalSubject(Save(Change(Edit(InitialCard(original)), edited))) == edited
    ensures IntendedApprovalSubject(Cancel(original, Change(Edit(InitialCard(original)), edited))) == original
    ensures IntendedApprovalSubject(InitialCard(original)) == original
  {
  }
}

=== FILE: test_case_editor.dfy ===
/** The test-case editor form: single-field edits, step edits, and the remove-step guard.
    Each handler hands a new test case to the card's `onChange`; submitting the form only
    signals `onSave`. */
module TestCaseEditor {
  import opened TestCaseTypes

  /** The free-text inputs of the form, named by their `name` attribute. */
  datatype Field = Title | Objective | Prerequisites | ExpectedResults

  function FieldValue(tc: TestCase, f: Field): string {
    match f
    case Title => tc.title
    case Objective => tc.objective
    case Prerequisites => tc.prerequisites
    case ExpectedResults => tc.expectedResults
  }

  /** `handleInputChange`: the named field takes the typed value; every other field,
      the steps and the identity included, is untouched. */
  function UpdateField(tc: TestCase, f: Field, value: string): (r: TestCase)
    ensures FieldValue(r, f) == value
    ensures forall g :: g != f ==> FieldValue(r, g) == FieldValue(tc, g)
    ensures r.id == tc.id && r.jiraId == tc.jiraId && r.steps == tc.steps
    ensures r.createdAt == tc.createdAt && r.status == tc.status
    ensures r.rejectionReason == tc.rejectionReason
  {
    match f
    case Title => tc.(title := value)
    case Objective => tc.(objective := value)
    case Prerequisites => tc.(prerequisites := value)
    case ExpectedResults => tc.(expectedResults := value)
  }

  /** `handleStepChange(index, value)`. Indices come from rendering the steps, so they are
      always in range. */
  function ChangeStep(tc: TestCase, index: nat, value: string): (r: TestCase)
    requires index < |tc.steps|
    ensures |r.steps| == |tc.steps| && r.steps[index] == value
    ensures forall j :: 0 <= j < |tc.steps| && j != index ==> r.steps[j] == tc.steps[j]
    ensures r.(steps := tc.steps) == tc
  {
    tc.(steps := tc.steps[index := value])
  }

  /** `addStep`: one more step, empty, after the existing ones. */
  function AddStep(tc: TestCase): (r: TestCase)
    ensures |r.steps| == |tc.steps| + 1
    ensures r.steps[..|tc.steps|] == tc.steps && r.steps[|tc.steps|] == ""
    ensures r.(steps := tc.steps) == tc
  {
    tc.(steps := tc.steps + [""])
  }

  /** The steps whose position differs from `index`: the positional filter
      `steps.filter((_, i) => i !== index)`. */
  function DropPosition(steps: seq<string>, index: int): (r: seq<string>)
    ensures 0 <= index < |steps| ==> r == steps[..index] + steps[index + 1..]
    ensures !(0 <= index < |steps|) ==> r == steps
  {
    if |steps| == 0 then []
    else
      var rest := DropPosition(steps[1..], index - 1);
      if index == 0 then rest
      else
        assert index != 0 && 0 <= index < |steps| ==> rest == steps[1..index] + steps[index + 1..];
        [steps[0]] + rest
  }

  /** `removeStep(index)`. An index outside the list removes nothing. */
  function RemoveStep(tc: TestCase, index: int): (r: TestCase)
    ensures 0 <= index < |tc.steps| ==> |r.steps| == |tc.steps| - 1
    ensures 0 <= index < |tc.steps| ==>
      (forall j :: 0 <= j < index ==> r.steps[j] == tc.steps[j])
      && (forall j :: index <= j < |r.steps| ==> r.steps[j] == tc.steps[j + 1])
    ensures !(0 <= index < |tc.steps|) ==> r.steps == tc.steps
    ensures r.(steps := tc.steps) == tc
  {
    tc.(steps := DropPosition(tc.steps, index))
  }

  /** The remove button is rendered only while there is more than one step. */
  predicate RemoveOffered(tc: TestCase) {
    |tc.steps| > 1
  }

  /** What the form reports to the card. */
  datatype Event = Changed(updated: TestCase) | Saved

  /** The user's inputs on the form. */
  datatype Input =
    | TypeField(field: Field, text: string)
    | TypeStep(stepIndex: nat, stepText: string)
    | ClickAddStep
    | ClickRemoveStep(removeIndex: nat)
    | SubmitForm

  /** Which inputs the rendered form can produce: a step input or remove button exists only
      for a listed step, and the remove button only while more than one step is listed. */
  predicate InputOffered(tc: TestCase, input: Input) {
    match input
    case TypeStep(i, _) => i < |tc.steps|
    case ClickRemoveStep(i) => i < |tc.steps| && RemoveOffered(tc)
    case _ => true
  }

  /** The handler an input reaches. Submitting only signals `onSave` and carries no test
      case, so the form never changes the case on submit. */
  function Handle(tc: TestCase, input: Input): (e: Event)
    requires InputOffered(tc, input)
    ensures input.SubmitForm? <==> e.Saved?
    ensures e.Changed? ==> e.updated.id == tc.id && e.updated.jiraId == tc.jiraId
  {
    match input
    case TypeField(f, text) => Changed(UpdateField(tc, f, text))
    case TypeStep(i, text) => Changed(ChangeStep(tc, i, text))
    case ClickAddStep => Changed(AddStep(tc))
    case ClickRemoveStep(i) => Changed(RemoveStep(tc, i))
    case SubmitForm => Saved
  }

  /** The card feeds every `Changed` back as the editor's new test case. */
  function Apply(tc: TestCase, input: Input): TestCase
    requires InputOffered(tc, input)
  {
    match Handle(tc, input)
    case Changed(updated) => updated
    case Saved => tc
  }

  /** Replays inputs, stopping at the first one the form would not offer. */
  function Replay(tc: TestCase, inputs: seq<Input>): TestCase
    decreases |inputs|
  {
    if |inputs| == 0 || !InputOffered(tc, inputs[0]) then tc
    else Replay(Apply(tc, inputs[0]), inputs[1..])
  }

  /** Starting from at least one step, no sequence of form inputs leaves the case without
      steps, and none changes its identity or its Jira key. */
  lemma {:induction false} ReplayKeepsStepsAndIdentity(tc: TestCase, inputs: seq<Input>)
    requires |tc.steps| >= 1
    ensures |Replay(tc, inputs).steps| >= 1
    ensures Replay(tc, inputs).id == tc.id && Replay(tc, inputs).jiraId == tc.jiraId
    decreases |inputs|
  {
    if |inputs| > 0 && InputOffered(tc, inputs[0]) {
      ReplayKeepsStepsAndIdentity(Apply(tc, inputs[0]), inputs[1..]);
    }
  }
}

=== FILE: webhook_service.dfy ===
/** The remote gateway: the three webhook calls, the JSON bodies they send, and how a
    reply becomes a result or an error message. The HTTP exchange itself is a parameter:
    each call receives the reply it would get, and reports the request it would send. */
module WebhookService {
  import opened Wrappers
  import opened JsText
  import opened TestCaseTypes

  /** The JSON values the payloads are made of. Objects are unordered. */
  datatype Json = JString(str: string) | JArray(items: seq<Json>) | JObject(fields: map<string, Json>)

  /** The member `key` of an object, if it is one and has it. */
  function Member(j: Json, key: string): Option<Json> {
    if j.JObject? && key in j.fields then Some(j.fields[key]) else None
  }

  /** The value at a path of member names. */
  function At(j: Json, path: seq<string>): Option<Json>
    decreases |path|
  {
    if |path| == 0 then Some(j)
    else match Member(j, path[0])
      case None => None
      case Some(child) => At(child, path[1..])
  }

  function StringsToJson(xs: seq<string>): (r: seq<Json>)
    ensures |r| == |xs| && forall i :: 0 <= i < |xs| ==> r[i] == JString(xs[i])
  {
    if |xs| == 0 then [] else [JString(xs[0])] + StringsToJson(xs[1..])
  }

  /** Reads an array of strings back; any non-string item makes it fail. */
  function StringsFromJson(items: seq<Json>): Option<seq<string>> {
    if |items| == 0 then Some([])
    else if !items[0].JString? then None
    else match StringsFromJson(items[1..])
      case None => None
      case Some(rest) => Some([items[0].str] + rest)
  }

  lemma {:induction false} StringsRoundTrip(xs: seq<string>)
    ensures StringsFromJson(StringsToJson(xs)) == Some(xs)
  {
    if |xs| > 0 {
      var js := StringsToJson(xs);
      assert js[1..] == StringsToJson(xs[1..]);
      StringsRoundTrip(xs[1..]);
      assert [xs[0]] + xs[1..] == xs;
    }
  }

  /** Adds `key` only when the optional value is present: `JSON.stringify` drops
      undefined members. */
  function WithOptional(m: map<string, Json>, key: string, v: Option<string>): map<string, Json> {
    match v
    case Some(s) => m[key := JString(s)]
    case None => m
  }

  /** The JSON object of a test case, as the spread `...testCase` copies it. */
  function TestCaseToJson(tc: TestCase): (m: map<string, Json>)
    ensures "metadata" !in m
    ensures m.Keys == {"id", "jiraId", "title", "objective", "prerequisites", "steps", "expectedResults"}
      + (if tc.createdAt.Some? then {"createdAt"} else {})
      + (if tc.status.Some? then {"status"} else {})
      + (if tc.rejectionReason.Some? then {"rejectionReason"} else {})
  {
    var required := map[
      "id" := JString(tc.id),
      "jiraId" := JString(tc.jiraId),
      "title" := JString(tc.title),
      "objective" := JString(tc.objective),
      "prerequisites" := JString(tc.prerequisites),
      "steps" := JArray(StringsToJson(tc.steps)),
      "expectedResults" := JString(tc.expectedResults)];
    var status := match tc.status case Some(st) => Some(StatusName(st)) case None => None;
    WithOptional(WithOptional(WithOptional(required, "createdAt", tc.createdAt),
      "status", status), "rejectionReason", tc.rejectionReason)
  }

  function StringMember(m: map<string, Json>, key: string): Option<string> {
    if key in m && m[key].JString? then Some(m[key].str) else None
  }

  /** Reads a test case out of a JSON object, as the receiving side would; members it does
      not know are ignored. */
  function TestCaseFromJson(m: map<string, Json>): Option<TestCase> {
    var id := StringMember(m, "id");
    var jiraId := StringMember(m, "jiraId");
    var title := StringMember(m, "title");
    var objective := StringMember(m, "objective");
    var prerequisites := StringMember(m, "prerequisites");
    var expected := StringMember(m, "expectedResults");
    var steps := if "steps" in m && m["steps"].JArray? then StringsFromJson(m["steps"].items) else None;
    var statusName := StringMember(m, "status");
    var status := match statusName case Some(n) => StatusFromName(n) case None => None;
    if id.None? || jiraId.None? || title.None? || objective.None? || prerequisites.None?
       || expected.None? || steps.None? || (statusName.Some? && status.None?)
    then None
    else Some(TestCase(id.value, jiraId.value, title.value, objective.value, prerequisites.value,
                       steps.value, expected.value, StringMember(m, "createdAt"), status,
                       StringMember(m, "rejectionReason")))
  }

  /** The members of an encoded test case, a few at a time. */
  lemma IdentityMembers(tc: TestCase)
    ensures var m := TestCaseToJson(tc);
      StringMember(m, "id") == Some(tc.id) && StringMember(m, "jiraId") == Some(tc.jiraId)
      && StringMember(m, "title") == Some(tc.title)
  {
  }

  lemma TextMembers(tc: TestCase)
    ensures var m := TestCaseToJson(tc);
      StringMember(m, "objective") == Some(tc.objective)
      && StringMember(m, "prerequisites") == Some(tc.prerequisites)
      && StringMember(m, "expectedResults") == Some(tc.expectedResults)
  {
  }

  lemma StepsMember(tc: TestCase)
    ensures var m := TestCaseToJson(tc);
      "steps" in m && m["steps"] == JArray(StringsToJson(tc.steps))
  {
  }

  lemma OptionalMembers(tc: TestCase)
    ensures var m := TestCaseToJson(tc);
      StringMember(m, "createdAt") == tc.createdAt
      && StringMember(m, "rejectionReason") == tc.rejectionReason
      && StringMember(m, "status") == (match tc.status case Some(st) => Some(StatusName(st)) case None => None)
  {
  }

  /** Encoding a test case loses nothing. */
  lemma TestCaseJsonRoundTrip(tc: TestCase)
    ensures TestCaseFromJson(TestCaseToJson(tc)) == Some(tc)
  {
    IdentityMembers(tc);
    TextMembers(tc);
    StepsMember(tc);
    OptionalMembers(tc);
    StringsRoundTrip(tc.steps);
    if tc.status.Some? {
      StatusNameRoundTrip(tc.status.value);
    }
  }

  /** The receiving side ignores the `metadata` member spread next to the test case. */
  lemma MetadataIsIgnored(m: map<string, Json>, metadata: Json)
    ensures TestCaseFromJson(m["metadata" := metadata]) == TestCaseFromJson(m)
  {
  }

  /** The spread `{...testCase, metadata}` still reads back as the same test case. */
  lemma SpreadKeepsTestCase(tc: TestCase, metadata: Json)
    ensures TestCaseFromJson(TestCaseToJson(tc)["metadata" := metadata]) == Some(tc)
  {
    TestCaseJsonRoundTrip(tc);
    MetadataIsIgnored(TestCaseToJson(tc), metadata);
  }

  const ApprovedStatus: string := "APPROVED"
  const RejectedStatus: string := "REJECTED"

  /** The approval body: the test case with approval metadata, and a request to file a
      Jira sub-task under the case's issue. */
  function ApprovalPayload(tc: TestCase, approvedAt: string): (p: Json)
    ensures At(p, ["testCase"]).Some? && At(p, ["testCase"]).value.JObject?
    ensures p.JObject? && p.fields.Keys == {"testCase", "jira"}
    ensures At(p, ["testCase"]).value.fields.Keys == TestCaseToJson(tc).Keys + {"metadata"}
    ensures TestCaseFromJson(At(p, ["testCase"]).value.fields) == Some(tc)
  {
    var metadata := JObject(map["approvedAt" := JString(approvedAt), "status" := JString(ApprovedStatus)]);
    SpreadKeepsTestCase(tc, metadata);
    JObject(map[
      "testCase" := JObject(TestCaseToJson(tc)["metadata" := metadata]),
      "jira" := JObject(map[
        "parentIssueKey" := JString(tc.jiraId),
        "issueType" := JString("Sub-task"),
        "labels" := JArray([JString("ai-generated"), JString("qa-approved")])])])
  }

  /** The rejection body: the test case with rejection metadata carrying the reason, and a
      comment for the case's Jira issue quoting the reason. */
  function RejectionPayload(tc: TestCase, reason: string, rejectedAt: string): (p: Json)
    ensures At(p, ["testCase"]).Some? && At(p, ["testCase"]).value.JObject?
    ensures p.JObject? && p.fields.Keys == {"testCase", "jira"}
    ensures At(p, ["testCase"]).value.fields.Keys == TestCaseToJson(tc).Keys + {"metadata"}
    ensures TestCaseFromJson(At(p, ["testCase"]).value.fields) == Some(tc)
  {
    var metadata := JObject(map[
      "rejectedAt" := JString(rejectedAt),
      "status" := JString(RejectedStatus),
      "rejectionReason" := JString(reason)]);
    SpreadKeepsTestCase(tc, metadata);
    JObject(map[
      "testCase" := JObject(TestCaseToJson(tc)["metadata" := metadata]),
      "jira" := JObject(map[
        "issueKey" := JString(tc.jiraId),
        "comment" := JString("Test case rejected: " + reason)])])
  }

  /** The approval metadata spread into the test case: the fixed status marker and the time. */
  lemma ApprovalPayloadMetadata(tc: TestCase, approvedAt: string)
    ensures var p := ApprovalPayload(tc, approvedAt);
      && At(p, ["testCase", "metadata", "status"]) == Some(JString(ApprovedStatus))
      && At(p, ["testCase", "metadata", "approvedAt"]) == Some(JString(approvedAt))
    ensures var m := At(ApprovalPayload(tc, approvedAt), ["testCase", "metadata"]);
      m.Some? && m.value.JObject? && m.value.fields.Keys == {"approvedAt", "status"}
  {
  }

  /** The rejection metadata spread into the test case: the fixed status marker, the time
      and the reason. */
  lemma RejectionPayloadMetadata(tc: TestCase, reason: string, rejectedAt: string)
    ensures var p := RejectionPayload(tc, reason, rejectedAt);
      && At(p, ["testCase", "metadata", "status"]) == Some(JString(RejectedStatus))
      && At(p, ["testCase", "metadata", "rejectedAt"]) == Some(JString(rejectedAt))
      && At(p, ["testCase", "metadata", "rejectionReason"]) == Some(JString(reason))
    ensures var m := At(RejectionPayload(tc, reason, rejectedAt), ["testCase", "metadata"]);
      m.Some? && m.value.JObject? && m.value.fields.Keys == {"rejectedAt", "status", "rejectionReason"}
  {
  }

  /** The Jira part of the approval body: a sub-task under the case's issue, labelled as
      generated and approved. */
  lemma ApprovalPayloadJira(tc: TestCase, approvedAt: string)
    ensures var p := ApprovalPayload(tc, approvedAt);
      && At(p, ["jira", "parentIssueKey"]) == Some(JString(tc.jiraId))
      && At(p, ["jira", "issueType"]) == Some(JString("Sub-task"))
      && At(p, ["jira", "labels"]) == Some(JArray([JString("ai-generated"), JString("qa-approved")]))
    ensures var j := At(ApprovalPayload(tc, approvedAt), ["jira"]);
      j.Some? && j.value.JObject? && j.value.fields.Keys == {"parentIssueKey", "issueType", "labels"}
  {
  }

  /** The Jira part of the rejection body: a comment on the case's issue quoting the reason. */
  lemma RejectionPayloadJira(tc: TestCase, reason: string, rejectedAt: string)
    ensures var p := RejectionPayload(tc, reason, rejectedAt);
      && At(p, ["jira", "issueKey"]) == Some(JString(tc.jiraId))
      && At(p, ["jira", "comment"]) == Some(JString("Test case rejected: " + reason))
    ensures var j := At(RejectionPayload(tc, reason, rejectedAt), ["jira"]);
      j.Some? && j.value.JObject? && j.value.fields.Keys == {"issueKey", "comment"}
  {
  }

  /** The reason can be read back from the Jira comment: the comment is the fixed prefix
      followed by the reason itself. */
  lemma RejectionCommentCarriesReason(tc: TestCase, reason: string, rejectedAt: string)
    ensures var c := At(RejectionPayload(tc, reason, rejectedAt), ["jira", "comment"]);
      c.Some? && c.value.JString? && |c.value.str| >= 20
      && c.value.str[..20] == "Test case rejected: " && c.value.str[20..] == reason
  {
    RejectionPayloadJira(tc, reason, rejectedAt);
  }

  const HttpErrorPrefix: string := "HTTP error! Status: "

  /** The generic failure message for a status code. */
  function HttpErrorMessage(status: nat): (m: string)
    ensures |m| > |HttpErrorPrefix| && m[..|HttpErrorPrefix|] == HttpErrorPrefix
    ensures IsDigits(m[|HttpErrorPrefix|..]) && DecimalValue(m[|HttpErrorPrefix|..]) == status
  {
    DecimalRoundTrip(status);
    var m := HttpErrorPrefix + NatToDecimal(status);
    assert m[|HttpErrorPrefix|..] == NatToDecimal(status);
    m
  }

  /** Different status codes give different generic messages. */
  lemma HttpErrorMessageInjective(a: nat, b: nat)
    requires HttpErrorMessage(a) == HttpErrorMessage(b)
    ensures a == b
  {
  }

  /** `errorData.message || \`HTTP error! Status: ${status}\``: the body's message unless
      it is absent (no body, unparseable body, no member) or empty. Never empty itself. */
  function SubmitErrorMessage(status: nat, bodyMessage: Option<string>): (m: string)
    ensures m != ""
    ensures bodyMessage.Some? && bodyMessage.value != "" ==> m == bodyMessage.value
    ensures bodyMessage.None? || bodyMessage.value == "" ==> m == HttpErrorMessage(status)
  {
    OrElse(bodyMessage.GetOr(""), HttpErrorMessage(status))
  }

  /** `response.ok`. */
  predicate IsOk(status: nat) {
    200 <= status <= 299
  }

  /** Production talks to the webhooks; development answers locally. */
  datatype Mode = Production | Development

  /** The headers every call sends: JSON in both directions. */
  const JsonHeaders: seq<(string, string)> := [("Content-Type", "application/json"), ("Accept", "application/json")]

  datatype Request = Request(httpMethod: string, url: string, headers: seq<(string, string)>, body: Option<Json>)

  /** What `response.json()` gives the fetch: a value whose `testCases` member is an array
      (`Some`), or a value without one, such as an object lacking it or a number (`None`);
      JSON `null`, on which reading `testCases` throws a TypeError; or a parse error. */
  datatype FetchBody =
    | FetchBodyParsed(testCases: Option<seq<TestCase>>)
    | FetchBodyNull(typeError: string)
    | FetchBodyUnparseable(parseError: string)

  datatype FetchReply = FetchResponse(status: nat, body: FetchBody) | FetchNetworkError(networkError: string)

  /** What `response.json().catch(() => ({}))` gives a failed submission: a value whose
      `message` member is read (`None` when it is missing or the body did not parse, which
      yields `{}`), or JSON `null`, on which reading `message` throws a TypeError. */
  datatype ErrorBody = ErrorObject(message: Option<string>) | ErrorNull(typeError: string)

  /** What a submission endpoint answers: a status and its error body, or a transport
      failure. */
  datatype SubmitReply = SubmitResponse(status: nat, body: ErrorBody) | SubmitNetworkError(networkError: string)

  /** A call's request (none in development mode) and its result. */
  datatype FetchCall = FetchCall(request: Option<Request>, result: Result<seq<TestCase>, string>)
  datatype SubmitCall = SubmitCall(request: Option<Request>, outcome: Outcome<string>)

  /** `fetchTestCasesFromWebhook`. */
  function FetchTestCasesFromWebhook(mode: Mode, baseUrl: string, mockTexts: MockTexts, reply: FetchReply): (r: FetchCall)
    ensures mode.Development? ==> r.request.None? && r.result == Success(MockTestCases(mockTexts))
    ensures mode.Production? ==> r.request == Some(Request("GET", baseUrl + "/send-test-cases", JsonHeaders, None))
    ensures mode.Production? ==>
      (r.result.Success? <==> reply.FetchResponse? && IsOk(reply.status) && reply.body.FetchBodyParsed?)
    ensures mode.Production? && reply.FetchResponse? && !IsOk(reply.status) ==>
      r.result == Failure(HttpErrorMessage(reply.status))
    ensures mode.Production? && reply.FetchResponse? && IsOk(reply.status) && reply.body.FetchBodyNull? ==>
      r.result == Failure(reply.body.typeError)
    ensures mode.Production? && reply.FetchResponse? && IsOk(reply.status) && reply.body.FetchBodyUnparseable? ==>
      r.result == Failure(reply.body.parseError)
    ensures mode.Production? && reply.FetchNetworkError? ==> r.result == Failure(reply.networkError)
    ensures mode.Production? && r.result.Success? ==> r.result.value == reply.body.testCases.GetOr([])
  {
    match mode
    case Development => FetchCall(None, Success(MockTestCases(mockTexts)))
    case Production =>
      var request := Some(Request("GET", baseUrl + "/send-test-cases", JsonHeaders, None));
      match reply
      case FetchNetworkError(message) => FetchCall(request, Failure(message))
      case FetchResponse(status, body) =>
        if !IsOk(status) then FetchCall(request, Failure(HttpErrorMessage(status)))
        else match body
          case FetchBodyUnparseable(message) => FetchCall(request, Failure(message))
          case FetchBodyNull(message) => FetchCall(request, Failure(message))
          case FetchBodyParsed(testCases) => FetchCall(request, Success(testCases.GetOr([])))
  }

  /** The shared reply handling of the two submissions. */
  function SubmitOutcome(reply: SubmitReply): (o: Outcome<string>)
    ensures o.Pass? <==> reply.SubmitResponse? && IsOk(reply.status)
    ensures reply.SubmitResponse? && !IsOk(reply.status) && reply.body.ErrorObject? ==>
      o == Fail(SubmitErrorMessage(reply.status, reply.body.message))
    ensures reply.SubmitResponse? && !IsOk(reply.status) && reply.body.ErrorNull? ==>
      o == Fail(reply.body.typeError)
    ensures reply.SubmitNetworkError? ==> o == Fail(reply.networkError)
  {
    match reply
    case SubmitNetworkError(message) => Fail(message)
    case SubmitResponse(status, body) =>
      if IsOk(status) then Pass
      else match body
        case ErrorObject(message) => Fail(SubmitErrorMessage(status, message))
        case ErrorNull(typeError) => Fail(typeError)
  }

  /** `submitApprovalToWebhook`. */
  function SubmitApprovalToWebhook(mode: Mode, baseUrl: string, tc: TestCase, approvedAt: string, reply: SubmitReply): (r: SubmitCall)
    ensures mode.Development? ==> r.request.None? && r.outcome.Pass?
    ensures mode.Production? ==>
      r.request == Some(Request("POST", baseUrl + "/approve-test-case", JsonHeaders, Some(ApprovalPayload(tc, approvedAt))))
      && r.outcome == SubmitOutcome(reply)
  {
    match mode
    case Development => SubmitCall(None, Pass)
    case Production =>
      SubmitCall(Some(Request("POST", baseUrl + "/approve-test-case", JsonHeaders, Some(ApprovalPayload(tc, approvedAt)))),
                 SubmitOutcome(reply))
  }

  /** `submitRejectionToWebhook`. */
  function SubmitRejectionToWebhook(mode: Mode, baseUrl: string, tc: TestCase, reason: string, rejectedAt: string, reply: SubmitReply): (r: SubmitCall)
    ensures mode.Development? ==> r.request.None? && r.outcome.Pass?
    ensures mode.Production? ==>
      r.request == Some(Request("POST", baseUrl + "/reject-test-case", JsonHeaders, Some(RejectionPayload(tc, reason, rejectedAt))))
      && r.outcome == SubmitOutcome(reply)
  {
    match mode
    case Development => SubmitCall(None, Pass)
    case Production =>
      SubmitCall(Some(Request("POST", baseUrl + "/reject-test-case", JsonHeaders, Some(RejectionPayload(tc, reason, rejectedAt)))),
                 SubmitOutcome(reply))
  }

  /** Every failure the gateway reports over HTTP carries a non-empty message. */
  lemma HttpFailuresHaveMessages(mode: Mode, baseUrl: string, mockTexts: MockTexts, reply: FetchReply)
    requires reply.FetchResponse? && !IsOk(reply.status)
    ensures var r := FetchTestCasesFromWebhook(mode, baseUrl, mockTexts, reply);
      r.result.Failure? ==> r.result.error != ""
  {
  }

  /** The descriptive text of one development sample case and the moment it is created
      (each sample reads the clock separately). */
  datatype SampleText = SampleText(objective: string, prerequisites: string, steps: seq<string>, expectedResults: string, createdAt: string)

  function SampleCase(id: string, jiraId: string, title: string, text: SampleText): (tc: TestCase)
    ensures tc.id == id && tc.jiraId == jiraId && tc.steps == text.steps && tc.createdAt == Some(text.createdAt)
  {
    TestCase(id, jiraId, title, text.objective, text.prerequisites, text.steps, text.expectedResults,
             Some(text.createdAt), None, None)
  }

  /** The development catalog of three sample cases. Their descriptive text and creation
      times are a parameter. */
  function MockTestCases(texts: MockTexts): (cases: seq<TestCase>)
    ensures |cases| == 3 && DistinctIds(cases)
    ensures cases[0].jiraId == "QA-123" && cases[1].jiraId == "QA-124" && cases[2].jiraId == "QA-125"
    ensures cases[0].createdAt == Some(texts.login.createdAt) && cases[1].createdAt == Some(texts.search.createdAt)
      && cases[2].createdAt == Some(texts.settings.createdAt)
  {
    [SampleCase("1", "QA-123", "User Login Functionality", texts.login),
     SampleCase("2", "QA-124", "Product Search Functionality", texts.search),
     SampleCase("3", "QA-125", "User Account Settings Update", texts.settings)]
  }

  datatype MockTexts = MockTexts(login: SampleText, search: SampleText, settings: SampleText)
}

=== FILE: wrappers.dfy ===
/** The small sum types used across the model: an optional value, a value-or-error result,
    and a pass-or-fail outcome for operations that return nothing. */
module Wrappers {

  datatype Option<+T> = None | Some(value: T) {

    /** The value when present, `default` otherwise. */
    function GetOr(default: T): T {
      match this
      case Some(v) => v
      case None => default
    }
  }

  datatype Result<+R, +E> = Success(value: R) | Failure(error: E)

  /** The result of an operation that returns nothing but may fail. */
  datatype Outcome<+E> = Pass | Fail(error: E)
}
